=== FILE: README.md ===
# Order book of a peer-to-peer exchange node, in Dafny

This project models the `OrderBook` class of a small distributed exchange.
Each node (a "peer") keeps an in-memory book of resting orders for three
instruments: `btc-usd`, `eth-usd` and `xau-usd`. Each instrument's list is
kept in price order.

A new client order goes through three steps:

1. It is matched against the local book first.
2. What is left is announced to the other peers. The first peer that
   answers with a match is sent a confirmation.
3. Anything still unmatched comes to rest in the local book.

Peers handle announcements by locking the orders they could match. They
handle confirmations by closing them. A periodic sweep evicts closed
orders.

The book is modelled as `map<string, seq<Order>>`, and every operation is a
pure function that returns a new book. Any place where the program would
throw is an `Err` result:

- `TickerNotFound`: a ticker with no list, where `orders.get(t)!` is undefined.
- `OrderNotFound`: the failed assertion in `update`.

Fresh order ids, the peers' replies and the messages a peer would send are
parameters and results, not effects.

No id appears twice in a ticker's list (`UniqueBook`). Store, sweep,
marking, the webhook and the intake each keep this, given ids that name no
order yet (the `KeepsUnique` lemmas). Likewise no list holds a negative
quantity (`NonNegativeBook`), and each operation keeps this when the
quantities it is handed are not negative (the `KeepsNonNegative` lemmas).
So the search and locking lemmas, which rely on both facts, apply again to
the next event.

Modules:

- `Wrappers`: `Option`, `Result`, `Min`.
- `Orders`: orders, statuses, match results, partial updates (`Patch`), and
  the list vocabulary (`SumQty`, `Sorted`, `FindIndex`, `IsSubsequence`).
- `OrderStore`: the constructor, `store`, `update` and `sweepAndRelease`.
  The sweep is modelled by its own loop (`SweepTicker`) and by the
  recursive `SweepList`.
- `Matcher`: `searchOrdersLocally` and its eligibility rule.
- `Settlement`: `markOrdersLocally` as written (`MarkOrdersLocally`, `MarkIds`).
  It is characterised by the loop-free `MarkedList`. The module also holds
  the corrected applier `MarkOrdersRunning`.
- `Peers`: the selection step of `searchOrdersWithPeers`, and the `webhook`
  handler.
- `Intake`: `processNewOrder`.

The webhook and the intake flow call `markOrdersLocally` as written
(`MarkOrdersLocally`). The corrected applier `MarkOrdersRunning` sits beside
it as the repaired form of the first finding under "## Findings". On a match
that names a single order the two appliers agree
(`Settlement.SingleIdAppliersAgree`).

## Model

| member | source | states |
|---|---|---|
| OrderStore.NewBook | src/orderBook.ts:47-51 | a new book holds exactly the three valid tickers, each with an empty list, and is valid, with no id repeated and no negative quantity |
| Orders.OppositeType | src/orderBook.ts:374-380 | the side searched is never the incoming order's own side |
| OrderStore.Store | src/orderBook.ts:115-130 | succeeds exactly when the order's ticker has a list; that list grows by one element, a sorted list stays sorted, and its total quantity grows by the order's quantity; no other ticker changes |
| OrderStore.StoreAddsOrder | src/orderBook.ts:115-130 | the ticker's list gains exactly the new order, counted as a multiset: nothing is lost or duplicated |
| OrderStore.InsertIndex | src/orderBook.ts:119-129 | the order lands at the first position holding a strictly greater price, so after every equal price; the orders before and after that position keep their relative order |
| OrderStore.InsertSorted | src/orderBook.ts:115-130 | inserting into a price-sorted list keeps it sorted |
| OrderStore.InsertKeepsUnique | src/orderBook.ts:119-129 | inserting an order whose id is new to the list keeps the list's ids unique |
| OrderStore.StoreKeepsUnique | src/orderBook.ts:115-130 | storing an order whose id is new to its list succeeds, keeps every list's ids unique, and the list then names exactly its old ids and the order's |
| OrderStore.StoreKeepsNonNegative | src/orderBook.ts:115-130 | storing an order of non-negative quantity succeeds and leaves no negative quantity in any list |
| OrderStore.StoreValid | src/orderBook.ts:115-130 | storing an order of a valid ticker into a valid book succeeds and keeps the book valid |
| OrderStore.Update | src/orderBook.ts:175-188 | succeeds exactly when the current order's ticker has a list holding its id; a missing id is `OrderNotFound`; the first entry with that id becomes `{...current, ...patch}`, while the length and every other entry and ticker stay unchanged |
| OrderStore.MergeSpread | src/orderBook.ts:184-187 | for each of the eight fields (id, ticker, type, price, quantity, owner, status, lock expiry) a supplied value wins and an absent one keeps the current order's value; an empty patch changes nothing |
| OrderStore.SweepList | src/orderBook.ts:196-206 | one sweep of a list never lengthens it |
| OrderStore.SweepListNoClosed | src/orderBook.ts:196-206 | a list holding no closed order comes out of a sweep unchanged |
| OrderStore.SweepTicker | src/orderBook.ts:196-206 | the splice-then-advance loop computes `SweepList` |
| OrderStore.SweepListSubsequence | src/orderBook.ts:196-206 | the sweep only deletes, and survivors keep their relative order |
| OrderStore.SweepListNotClosed | src/orderBook.ts:196-206 | the orders that are not closed are exactly the same, in the same order, before and after a sweep |
| OrderStore.SweepAndRelease | src/orderBook.ts:191-213 | only the three valid tickers are visited; each of their lists becomes a subsequence of itself with the same non-closed orders |
| OrderStore.SweepValid | src/orderBook.ts:191-213 | a sweep keeps a valid book valid (sorted, and each order in its own ticker's list) |
| OrderStore.SweepKeepsUnique | src/orderBook.ts:191-213 | a sweep keeps every list's ids unique and brings back no id: an id fresh before the sweep is fresh after it |
| OrderStore.SweepKeepsNonNegative | src/orderBook.ts:191-213 | a sweep leaves no negative quantity where there was none |
| OrderStore.SweepKeepsOpenAndLocked | src/orderBook.ts:199-203 | no open or locked order is ever removed |
| OrderStore.SweepSkipsAdjacentClosed | src/orderBook.ts:196-203 | a list of exactly two closed orders: one sweep leaves the second, and the next sweep removes it |
| OrderStore.SweepLeavesAdjacentClosed | src/orderBook.ts:196-203 | in any list holding two adjacent closed orders, at least one closed order survives a sweep: either the second is skipped or the first was |
| OrderStore.SweepListSpacedRemovesAll | src/orderBook.ts:196-203 | when no two closed orders are adjacent, one sweep removes every closed order |
| OrderStore.SweepAllAndRelease | src/orderBook.ts:191-213 | the intended sweep: no closed order remains in a valid ticker's list, and the non-closed orders are unchanged |
| OrderStore.SweepAllIdempotent | src/orderBook.ts:191-213 | the intended sweep is idempotent |
| Matcher.ScanOrders | src/orderBook.ts:226-253 | the scan takes a subsequence of eligible candidates; the need left is zero exactly when they cover it, and otherwise is the need minus what they hold; every order taken before the last one leaves some need uncovered |
| Matcher.SearchLocally | src/orderBook.ts:215-261 | fails only for a ticker with no list; every returned id names an eligible order (other owner, opposite side, open, price not above the incoming one); `quantityMatched` is the smaller of the matched total and the wanted quantity, and lies in `[0, quantity]`; `fullyMatched` holds exactly when all was matched; `serverName` is this peer's name |
| Matcher.MatchedOrdersFirstFill | src/orderBook.ts:226-253 | the matched orders are the shortest run of eligible candidates, from the cheapest end, that covers the wanted quantity, or all eligible candidates when none does |
| Matcher.MatchedBeforeLastWithinMatch | src/orderBook.ts:243-253 | every matched order except the last one holds no more than the matched quantity |
| Settlement.MarkOrdersLocally | src/orderBook.ts:132-159 | a match naming no ids leaves the book unchanged; ids on a ticker with no list give `TickerNotFound`; it fails only when there are ids; the tickers never change |
| Settlement.MarkIds | src/orderBook.ts:136-157 | the loop over the ids: no ids leaves the book unchanged; ids on a ticker with no list give `TickerNotFound`; it fails only when there are ids; the tickers never change |
| Settlement.MarkOrdersLocallyMeetsSpec | src/orderBook.ts:132-159 | the as-written loop equals `MarkedList`: ids before the split point mark the order they name, the order at the split point is split, and later ids are ignored |
| Settlement.MarkOrdersLocallyValid | src/orderBook.ts:132-159 | as-written marking keeps a valid book valid, conserves the ticker's total quantity and leaves other tickers alone |
| Settlement.MarkSplitsFirst | src/orderBook.ts:144-153 | when the first id names an order holding more than the match, that order is given `markAs` and the matched quantity; a fresh open remainder with the same ticker, side, price and owner holds the rest, and the two parts add up to the original; later ids are ignored |
| Settlement.MarkedListIds | src/orderBook.ts:132-159 | with a fresh id for the remainder, marking keeps a list's ids unique and names no id but the old ones and the fresh one |
| Settlement.MarkOrdersLocallyKeepsUnique | src/orderBook.ts:132-159 | on a ticker whose list holds only its own orders, as-written marking with a fresh remainder id succeeds, keeps every list's ids unique, and adds at most the fresh id to the ticker's list |
| Settlement.MarkedListNonNegative | src/orderBook.ts:144-153 | with a non-negative match, marking leaves no negative quantity: the split order keeps the match and the remainder the positive surplus |
| Settlement.MarkOrdersLocallyKeepsNonNegative | src/orderBook.ts:132-159 | as-written marking with a non-negative match succeeds and leaves no negative quantity in any list |
| Settlement.MarkWithoutSplit | src/orderBook.ts:139-157 | without a split, ids that name nothing change nothing, and a named order gets only its status set |
| Settlement.MarkedListMarksAll | src/orderBook.ts:136-157 | with unique ids and no split before the last id, every named order ends with status `markAs` |
| Settlement.MarkOrdersLocallyOverSettles | src/orderBook.ts:144 | on two sells of 2 and 3 against a buy of 4, the search matches 4 and the as-written applier closes 5 units, where the corrected one closes 4 |
| Settlement.SingleIdAgrees | src/orderBook.ts:136-157 | on a single id, the as-written list update and the corrected one give the same list, whether the id names nothing, names an order that is split, or names one marked whole |
| Settlement.SingleIdAppliersAgree | src/orderBook.ts:132-159 | on a match naming a single order, `MarkOrdersLocally` and the corrected `MarkOrdersRunning` give the same result |
| Settlement.MarkOrdersRunning | src/orderBook.ts:132-159 | corrected applier: fails only for a non-empty match on a ticker with no list, and never touches another ticker |
| Settlement.SettleRunningMarksExactly | src/orderBook.ts:132-159 | the corrected applier gives `markAs` to exactly the smaller of the matched quantity and the open quantity the ids name, and conserves the total |
| Settlement.SettleRunningMarksAll | src/orderBook.ts:136-157 | when every proper prefix of the ids names no more than the match, every named order ends with status `markAs` |
| Settlement.MarkOrdersRunningValid | src/orderBook.ts:132-159 | the corrected applier keeps a valid book valid, conserves the ticker's total quantity and leaves other tickers alone |
| Peers.SelectPeerResult | src/orderBook.ts:263-283 | with no reply at all, the result is the zero match under this peer's name |
| Peers.SelectPeerResultIsFirst | src/orderBook.ts:264-282 | the result is the first reply that is present, or the zero match when none is |
| Peers.Webhook | src/orderBook.ts:295-364 | announces and confirmations go through the as-written `MarkOrdersLocally`; a message from this peer itself changes nothing and gets no reply; only an announce is answered, with this peer's name, a non-zero matched quantity and ids that name eligible orders; malformed and unknown events leave the book alone; the tickers never change |
| Peers.WebhookKeepsValid | src/orderBook.ts:318-351 | on a valid book an event about a valid ticker is handled without error, keeps the book valid and conserves every ticker's total; an announce for an unknown ticker aborts |
| Peers.WebhookKeepsUnique | src/orderBook.ts:295-364 | on a valid book with unique ids and a fresh remainder id, every handled message leaves every list's ids unique |
| Peers.WebhookKeepsNonNegative | src/orderBook.ts:295-364 | a message whose announced quantity and confirmed match are not negative leaves no negative quantity in a valid book |
| Peers.SearchPrefixesWithin | src/orderBook.ts:226-253 | a search result's ids are distinct, and every proper prefix of them names no more than the matched quantity |
| Peers.SplitsOnlyLastPoint | src/orderBook.ts:139-153 | when no id before the last one names an order bigger than the match, the as-written loop reaches the last id before it can break |
| Peers.SearchSplitsOnlyLast | src/orderBook.ts:226-253 | in a search result, only the last id can name an order holding more than the matched quantity |
| Peers.SearchIdsListed | src/orderBook.ts:226-253 | a search result names only ids present in the ticker's list, so an id absent from the list is never among them |
| Peers.SearchMarksAll | src/orderBook.ts:132-159 | marking a search result of a list with unique ids, using a fresh id for the remainder, gives every named order the status `markAs` |
| Peers.AnnounceAnswersMatch | src/orderBook.ts:318-333 | an announce from another peer for a valid ticker is handled without error and answered exactly when the local search matched anything; the answer is that search result, and an unanswered announce leaves the book unchanged |
| Peers.AnnounceLocksMatched | src/orderBook.ts:318-333 | an announce is answered exactly when the local search matched; after it, every order the answer named is locked, so no later incoming order can match it again |
| Peers.ConfirmClosesNamed | src/orderBook.ts:340-351 | a confirmation from another peer, for a valid ticker of a valid book, whose ids are unique, exclude the fresh id and split at most at the last one, is handled without error and without a reply, and closes every order it names |
| Intake.RemotePhase | src/orderBook.ts:84-110 | succeeds whenever the order's ticker has a list, and when the remote match is not full it succeeds exactly then; a failure is `TickerNotFound`; it always announces the order first, as it stands after the local match |
| Intake.RemotePhaseValid | src/orderBook.ts:87-110 | a full remote match stores nothing; otherwise the residual, the order with quantity `quantity - remote match`, is in the list afterwards, the ticker's total grows by that quantity, and the book stays valid |
| Intake.RemoteKeepsUnique | src/orderBook.ts:84-110 | when the incoming order's id is new to its list, the remote phase keeps every list's ids unique |
| Intake.ProcessNewOrder | src/orderBook.ts:53-111 | a local match is closed through the as-written `MarkOrdersLocally`; an order for a ticker with no list aborts; the tickers never change |
| Intake.AfterLocalConserves | src/orderBook.ts:61-110 | whatever the local search returned, the steps after it keep a valid book valid and change the ticker's total only by what comes to rest |
| Intake.ProcessNewOrderConserves | src/orderBook.ts:61-110 | when the order rests, the ticker's total grows by exactly `quantity - local match - remote match`; after a full local or remote match it is unchanged; when the order rests, the order itself with quantity `quantity - local match - remote match` is in the ticker's list; the book stays valid and no other ticker changes |
| Intake.AfterLocalStoresResidual | src/orderBook.ts:64-110 | whatever the local search returned, an order that rests is in the ticker's list with both matches taken off its quantity |
| Intake.LocalCloseMarks | src/orderBook.ts:61-69 | closing a local search result with a fresh remainder id succeeds and gives every named order the status `Close` |
| Intake.LocalCloseMarksMatched | src/orderBook.ts:61-110 | on a valid book whose list has unique ids, a new order with a new id that matches locally ends with every order the local search named closed, whatever the peers reply |
| Intake.ProcessNewOrderKeepsUnique | src/orderBook.ts:53-111 | on a valid book with unique ids, a new order whose id and remainder id name no order yet, and differ, leaves every list's ids unique |
| Intake.RemoteKeepsNonNegative | src/orderBook.ts:84-110 | when the selected remote match is no larger than the order it answers, the remote phase leaves no negative quantity |
| Intake.ProcessNewOrderKeepsNonNegative | src/orderBook.ts:53-111 | an order of non-negative quantity, whose remote match is no larger than what the local match left, leaves no negative quantity after the whole intake |
| Intake.ProcessNewOrderMessages | src/orderBook.ts:64-93 | on a valid book, a full local match sends nothing; otherwise the order is announced once, reduced by the local match, and at most one confirmation goes out, to the first peer that replied and only when its match is non-zero |
| Intake.RemotePhaseMessages | src/orderBook.ts:84-93 | the order is announced exactly once; a confirmation follows exactly when the first peer that replied matched a non-zero quantity, and it goes to that peer for this ticker |

## Left out

- `isValidOrder` always returns true, so the early return in `processNewOrder` (lines 54-57) can never happen and is not modelled.
- Peer messaging is not modelled. This covers `peer.request`, `handler.reply` and `markOrdersMatchedInPeer`, together with the Grenache client and server. Replies are an input (`Option<seq<Option<MatchResult>>>`); announcements and confirmations are returned as `Outgoing` values.
- Async interleaving between awaits, and the timers that drive the sweep and the announcements, are not modelled. Every operation is one atomic step.
- `getRandomID` is a `freshId` parameter. Lemmas that need the id to be new require that it is not already in the list.
- Prices and quantities are JavaScript numbers (doubles). They are modelled as unbounded integers, so there is no rounding and no fractional quantity.
- `lockExpiresAt` is carried but never read, and locked orders are never released: no code does either.
- Logging and `printOpenOrders` are not modelled.
- The webhook's payload validation (line 312) becomes the `Malformed` event. The payload fields of the two known events are assumed to be present.
- Peers.ConfirmClosesNamed: its condition on the confirmed ids (no split before the last id) is stated on the book the confirmation reaches. No lemma derives it from the announce that locked those orders, because a split during the lock changes the list the confirmation then reads.
- Peers.WebhookKeepsNonNegative and Intake.ProcessNewOrderKeepsNonNegative assume the peers' figures are sane: a confirmed match is not negative, and a remote match is no larger than the quantity announced. The code trusts these figures without checking them, and a peer that sends otherwise can leave a negative quantity in the book.
- OrderStore.SweepAndRelease requires the three valid tickers to have lists. The source would throw otherwise, but the constructor always creates them.

## Findings

| source | as written | input that shows it | evidently intended | confidence | as-written member | corrected member |
|---|---|---|---|---|---|---|
| src/orderBook.ts:144 | every named order is compared with the TOTAL `quantityMatched`, and orders marked whole never reduce what is still needed, so a match over several orders settles more than it matched | resting sells `s1` of 2 and `s2` of 3 at price 100, and an incoming buy of 4 at 100: the search returns `[s1, s2]` with `quantityMatched` 4, and both sells are closed whole, 5 units | compare each order with a running need that falls by every order marked whole: `s1` is closed, and `s2` is split into 2 closed and 1 open | not executed | Settlement.MarkOrdersLocallyOverSettles | Settlement.SettleRunningMarksExactly |
| src/orderBook.ts:196-203 | after `splice(i, 1)` the index still advances, so the order that slid into slot `i` is never examined | a list of exactly two closed orders: one sweep leaves the second; in any list, of two adjacent closed orders at least one survives the sweep | every closed order is evicted in one sweep, so sweeping is idempotent | not executed | OrderStore.SweepSkipsAdjacentClosed | OrderStore.SweepAllIdempotent |

The intake flow and the webhook keep the code as written: they close and
lock through `MarkOrdersLocally`, so the over-settlement of the first row is
part of the modelled behaviour. The corrected applier is proved on its own
and agrees with the as-written one whenever a match names a single order.

=== FILE: intake.dfy ===
/** `processNewOrder`: the path of a client order through this peer —
    match locally, then ask the other peers, then rest what is left. The
    peers' replies are a parameter and the messages this peer would send
    are returned rather than sent. */
module Intake {
  import opened Wrappers
  import opened Orders
  import opened OrderStore
  import opened Matcher
  import opened Settlement
  import opened Peers

  /** What this peer sends: the order announced to every peer, and the
      confirmation of a match sent to the one peer that made it. */
  datatype Outgoing =
    | Broadcast(order: Order)
    | Confirm(peer: string, ticker: string, confirmed: MatchResult)

  /** The book after the intake and the messages it sends. */
  datatype Outcome = Outcome(book: Book, sent: seq<Outgoing>)

  /** Everything after the local phase: announce `order` (already reduced
      by what matched locally), take the selected remote result, confirm
      it with its peer when it matched anything, and store the residual
      unless the remote match was full. */
  function RemotePhase(book: Book, name: string, order: Order, replies: Option<seq<Option<MatchResult>>>)
    : (r: Result<Outcome, BookError>)
    ensures order.ticker in book ==> r.Ok?
    ensures r.Err? ==> r == Err(TickerNotFound(order.ticker))
    ensures var remote := SelectPeerResult(replies, name);
      !(remote.quantityMatched != 0 && remote.fullyMatched) ==> (r.Ok? <==> order.ticker in book)
    ensures r.Ok? ==> r.value.book.Keys == book.Keys
    ensures r.Ok? ==> |r.value.sent| > 0 && r.value.sent[0] == Broadcast(order)
  {
    var remote := SelectPeerResult(replies, name);
    var sent := [Broadcast(order)] + (if remote.quantityMatched != 0 then [Confirm(remote.serverName, order.ticker, remote)] else []);
    if remote.quantityMatched != 0 && remote.fullyMatched then Ok(Outcome(book, sent))
    else
      match Store(book, Residual(order, remote))
      case Err(e) => Err(e)
      case Ok(b) => Ok(Outcome(b, sent))
  }

  /** `processNewOrder`: search the local book, then continue with what
      the search found. */
  function ProcessNewOrder(book: Book, name: string, order: Order, replies: Option<seq<Option<MatchResult>>>,
                           freshId: string): (r: Result<Outcome, BookError>)
    ensures order.ticker !in book ==> r == Err(TickerNotFound(order.ticker))
    ensures r.Ok? ==> r.value.book.Keys == book.Keys
  {
    match SearchLocally(book, order, name)
    case Err(e) => Err(e)
    case Ok(local) => AfterLocal(book, name, order, local, replies, freshId)
  }

  /** `processNewOrder` once the local search returned `local`: a local
      match closes the matched orders; a full local match ends there;
      otherwise the remaining quantity goes to the peers and whatever they
      do not take rests in the book. */
  function AfterLocal(book: Book, name: string, order: Order, local: MatchResult,
                      replies: Option<seq<Option<MatchResult>>>, freshId: string): (r: Result<Outcome, BookError>)
    ensures r.Ok? ==> r.value.book.Keys == book.Keys
  {
    if local.quantityMatched != 0 then AfterClose(MarkOrdersLocally(book, Close, order.ticker, local, freshId), name, order, local, replies)
    else RemotePhase(book, name, order, replies)
  }

  /** What follows the local close: a full local match ends there;
      otherwise the remaining quantity goes to the peers. */
  function AfterClose(closed: Result<Book, BookError>, name: string, order: Order, local: MatchResult,
                      replies: Option<seq<Option<MatchResult>>>): (r: Result<Outcome, BookError>)
    ensures r.Ok? && closed.Ok? ==> r.value.book.Keys == closed.value.Keys
    ensures closed.Err? ==> r.Err?
  {
    match closed
    case Err(e) => Err(e)
    case Ok(b) =>
      if local.fullyMatched then Ok(Outcome(b, []))
      else RemotePhase(b, name, order.(quantity := order.quantity - local.quantityMatched), replies)
  }

  /** Whether any quantity of the order comes to rest in the book. */
  predicate Rests(local: MatchResult, remote: MatchResult)
  {
    && !(local.quantityMatched != 0 && local.fullyMatched)
    && !(remote.quantityMatched != 0 && remote.fullyMatched)
  }

  /** The residual the remote phase stores, when it stores one. */
  function Residual(order: Order, remote: MatchResult): (rest: Order)
  {
    order.(quantity := order.quantity - remote.quantityMatched)
  }

  /** The book the remote phase leaves: unchanged after a full remote
      match, otherwise the book with the residual stored. */
  lemma RemotePhaseBook(book: Book, name: string, order: Order, replies: Option<seq<Option<MatchResult>>>)
    requires order.ticker in book
    ensures var remote := SelectPeerResult(replies, name);
      RemotePhase(book, name, order, replies).value.book
      == if remote.quantityMatched != 0 && remote.fullyMatched then book
         else Store(book, Residual(order, remote)).value
  {
  }

  /** The remote phase on a valid book: the book stays valid, other
      tickers are untouched, and the ticker's total grows by the residual
      exactly when one rests. */
  lemma RemotePhaseValid(book: Book, name: string, order: Order, replies: Option<seq<Option<MatchResult>>>)
    requires Valid(book) && order.ticker in ValidTickers
    ensures RemotePhase(book, name, order, replies).Ok?
    ensures Valid(RemotePhase(book, name, order, replies).value.book)
    ensures forall t :: t in book && t != order.ticker ==> RemotePhase(book, name, order, replies).value.book[t] == book[t]
    ensures var remote := SelectPeerResult(replies, name);
      remote.quantityMatched != 0 && remote.fullyMatched ==> RemotePhase(book, name, order, replies).value.book == book
    ensures var remote := SelectPeerResult(replies, name);
      !(remote.quantityMatched != 0 && remote.fullyMatched) ==>
        SumQty(RemotePhase(book, name, order, replies).value.book[order.ticker])
        == SumQty(book[order.ticker]) + order.quantity - remote.quantityMatched
    ensures var remote := SelectPeerResult(replies, name);
      !(remote.quantityMatched != 0 && remote.fullyMatched) ==>
        Residual(order, remote) in RemotePhase(book, name, order, replies).value.book[order.ticker]
  {
    var remote := SelectPeerResult(replies, name);
    RemotePhaseBook(book, name, order, replies);
    if !(remote.quantityMatched != 0 && remote.fullyMatched) {
      StoreValid(book, Residual(order, remote));
      StoreAddsOrder(book, Residual(order, remote));
    }
  }

  /** `after` is a valid book with the same tickers as `before`, differing
      only in `ticker`, whose total quantity moved by `delta`. */
  predicate Conserved(before: Book, after: Book, ticker: string, delta: int)
  {
    && after.Keys == before.Keys
    && ticker in before
    && Valid(after)
    && (forall t :: t in before && t != ticker ==> after[t] == before[t])
    && SumQty(after[ticker]) == SumQty(before[ticker]) + delta
  }

  lemma ConservedChain(a: Book, b: Book, c: Book, ticker: string, d1: int, d2: int)
    requires Conserved(a, b, ticker, d1) && Conserved(b, c, ticker, d2)
    ensures Conserved(a, c, ticker, d1 + d2)
  {
  }

  /** The remote phase on a valid book, as a `Conserved` step. */
  lemma RemotePhaseConserves(book: Book, name: string, order: Order, replies: Option<seq<Option<MatchResult>>>)
    requires Valid(book) && order.ticker in ValidTickers
    ensures var remote := SelectPeerResult(replies, name);
      && RemotePhase(book, name, order, replies).Ok?
      && Conserved(book, RemotePhase(book, name, order, replies).value.book, order.ticker,
                   if remote.quantityMatched != 0 && remote.fullyMatched then 0 else order.quantity - remote.quantityMatched)
  {
    RemotePhaseValid(book, name, order, replies);
  }

  /** Quantity is conserved across the whole intake: on a valid book the
      ticker's total grows by exactly the residual
      `quantity - local match - remote match` when the order rests, and
      is unchanged when either match was full; the book stays valid and
      no other ticker changes. */
  lemma ProcessNewOrderConserves(book: Book, name: string, order: Order,
                                 replies: Option<seq<Option<MatchResult>>>, freshId: string)
    requires Valid(book) && order.ticker in ValidTickers
    ensures var r := ProcessNewOrder(book, name, order, replies, freshId);
      var local := SearchLocally(book, order, name).value;
      var remote := SelectPeerResult(replies, name);
      && r.Ok?
      && Conserved(book, r.value.book, order.ticker,
                   if Rests(local, remote) then order.quantity - local.quantityMatched - remote.quantityMatched else 0)
      && (Rests(local, remote) ==> Rested(order, local, remote) in r.value.book[order.ticker])
  {
    var local := SearchLocally(book, order, name).value;
    ProcessNewOrderUnfold(book, name, order, replies, freshId);
    AfterLocalConserves(book, name, order, local, replies, freshId);
    AfterLocalStoresResidual(book, name, order, local, replies, freshId);
  }

  /** The order as it rests after a local and a remote match. */
  function Rested(order: Order, local: MatchResult, remote: MatchResult): (rest: Order)
  {
    order.(quantity := order.quantity - local.quantityMatched - remote.quantityMatched)
  }

  /** When the order rests, what rests is the order itself with the local
      and the remote match taken off its quantity. */
  lemma AfterLocalStoresResidual(book: Book, name: string, order: Order, local: MatchResult,
                                 replies: Option<seq<Option<MatchResult>>>, freshId: string)
    requires Valid(book) && order.ticker in ValidTickers
    ensures var remote := SelectPeerResult(replies, name);
      Rests(local, remote) ==>
        && AfterLocal(book, name, order, local, replies, freshId).Ok?
        && Rested(order, local, remote) in AfterLocal(book, name, order, local, replies, freshId).value.book[order.ticker]
  {
    if Rests(local, SelectPeerResult(replies, name)) {
      if local.quantityMatched == 0 {
        NoLocalStoresResidual(book, name, order, local, replies, freshId);
      } else {
        PartialStoresResidual(book, name, order, local, replies, freshId);
      }
    }
  }

  lemma NoLocalStoresResidual(book: Book, name: string, order: Order, local: MatchResult,
                              replies: Option<seq<Option<MatchResult>>>, freshId: string)
    requires Valid(book) && order.ticker in ValidTickers
    requires local.quantityMatched == 0
    requires Rests(local, SelectPeerResult(replies, name))
    ensures AfterLocal(book, name, order, local, replies, freshId).Ok?
    ensures Rested(order, local, SelectPeerResult(replies, name))
            in AfterLocal(book, name, order, local, replies, freshId).value.book[order.ticker]
  {
    assert AfterLocal(book, name, order, local, replies, freshId) == RemotePhase(book, name, order, replies);
    RemotePhaseValid(book, name, order, replies);
    assert Residual(order, SelectPeerResult(replies, name)) == Rested(order, local, SelectPeerResult(replies, name));
  }

  lemma PartialStoresResidual(book: Book, name: string, order: Order, local: MatchResult,
                              replies: Option<seq<Option<MatchResult>>>, freshId: string)
    requires Valid(book) && order.ticker in ValidTickers
    requires local.quantityMatched != 0
    requires Rests(local, SelectPeerResult(replies, name))
    ensures AfterLocal(book, name, order, local, replies, freshId).Ok?
    ensures Rested(order, local, SelectPeerResult(replies, name))
            in AfterLocal(book, name, order, local, replies, freshId).value.book[order.ticker]
  {
    var remote := SelectPeerResult(replies, name);
    MarkOrdersLocallyValid(book, Close, order.ticker, local, freshId);
    var b := MarkOrdersLocally(book, Close, order.ticker, local, freshId).value;
    var reduced := order.(quantity := order.quantity - local.quantityMatched);
    AfterLocalPartial(book, name, order, local, replies, freshId, b);
    RemotePhaseValid(b, name, reduced, replies);
    assert Residual(reduced, remote) == Rested(order, local, remote);
  }

  /** The same, for whatever the local search returned. */
  lemma AfterLocalConserves(book: Book, name: string, order: Order, local: MatchResult,
                            replies: Option<seq<Option<MatchResult>>>, freshId: string)
    requires Valid(book) && order.ticker in ValidTickers
    ensures var r := AfterLocal(book, name, order, local, replies, freshId);
      var remote := SelectPeerResult(replies, name);
      && r.Ok?
      && Conserved(book, r.value.book, order.ticker,
                   if Rests(local, remote) then order.quantity - local.quantityMatched - remote.quantityMatched else 0)
  {
    if local.quantityMatched == 0 {
      NoLocalConserves(book, name, order, local, replies, freshId);
    } else if local.fullyMatched {
      LocalFullConserves(book, name, order, local, replies, freshId);
    } else {
      LocalPartialConserves(book, name, order, local, replies, freshId);
    }
  }

  /** Nothing matched locally: the remote phase runs on the whole order. */
  lemma NoLocalConserves(book: Book, name: string, order: Order, local: MatchResult,
                         replies: Option<seq<Option<MatchResult>>>, freshId: string)
    requires Valid(book) && order.ticker in ValidTickers
    requires local.quantityMatched == 0
    ensures var remote := SelectPeerResult(replies, name);
      && AfterLocal(book, name, order, local, replies, freshId).Ok?
      && Conserved(book, AfterLocal(book, name, order, local, replies, freshId).value.book, order.ticker,
                   if remote.quantityMatched != 0 && remote.fullyMatched then 0 else order.quantity - remote.quantityMatched)
  {
    assert AfterLocal(book, name, order, local, replies, freshId) == RemotePhase(book, name, order, replies);
    RemotePhaseConserves(book, name, order, replies);
  }

  /** A full local match closes what it matched and ends the intake. */
  lemma LocalFullConserves(book: Book, name: string, order: Order, local: MatchResult,
                           replies: Option<seq<Option<MatchResult>>>, freshId: string)
    requires Valid(book) && order.ticker in ValidTickers
    requires local.quantityMatched != 0 && local.fullyMatched
    ensures AfterLocal(book, name, order, local, replies, freshId).Ok?
    ensures Conserved(book, AfterLocal(book, name, order, local, replies, freshId).value.book, order.ticker, 0)
  {
    MarkOrdersLocallyValid(book, Close, order.ticker, local, freshId);
  }

  /** After a partial local match the intake continues with the remote
      phase on the reduced order. */
  lemma AfterLocalPartial(book: Book, name: string, order: Order, local: MatchResult,
                          replies: Option<seq<Option<MatchResult>>>, freshId: string, closed: Book)
    requires local.quantityMatched != 0 && !local.fullyMatched
    requires MarkOrdersLocally(book, Close, order.ticker, local, freshId) == Ok(closed)
    ensures AfterLocal(book, name, order, local, replies, freshId)
         == RemotePhase(closed, name,
                        order.(quantity := order.quantity - local.quantityMatched), replies)
  {
    AfterLocalClosed(book, name, order, local, replies, freshId, closed);
    AfterClosePartial(closed, name, order, local, replies);
  }

  /** After a partial local match the remote phase runs on the reduced order. */
  lemma AfterClosePartial(closed: Book, name: string, order: Order, local: MatchResult,
                          replies: Option<seq<Option<MatchResult>>>)
    requires !local.fullyMatched
    ensures AfterClose(Ok(closed), name, order, local, replies)
         == RemotePhase(closed, name, order.(quantity := order.quantity - local.quantityMatched), replies)
  {
  }

  /** With a local match, the intake continues from the closed book. */
  lemma AfterLocalClosed(book: Book, name: string, order: Order, local: MatchResult,
                         replies: Option<seq<Option<MatchResult>>>, freshId: string, closed: Book)
    requires local.quantityMatched != 0
    requires MarkOrdersLocally(book, Close, order.ticker, local, freshId) == Ok(closed)
    ensures AfterLocal(book, name, order, local, replies, freshId) == AfterClose(Ok(closed), name, order, local, replies)
  {
  }

  /** After a full local match the intake ends with the closed book. */
  lemma AfterLocalFull(book: Book, name: string, order: Order, local: MatchResult,
                       replies: Option<seq<Option<MatchResult>>>, freshId: string, closed: Book)
    requires local.quantityMatched != 0 && local.fullyMatched
    requires MarkOrdersLocally(book, Close, order.ticker, local, freshId) == Ok(closed)
    ensures AfterLocal(book, name, order, local, replies, freshId) == Ok(Outcome(closed, []))
  {
    AfterLocalClosed(book, name, order, local, replies, freshId, closed);
  }

  /** A partial local match closes what it matched, then the remote phase
      runs on the reduced order. */
  lemma LocalPartialConserves(book: Book, name: string, order: Order, local: MatchResult,
                              replies: Option<seq<Option<MatchResult>>>, freshId: string)
    requires Valid(book) && order.ticker in ValidTickers
    requires local.quantityMatched != 0 && !local.fullyMatched
    ensures var remote := SelectPeerResult(replies, name);
      && AfterLocal(book, name, order, local, replies, freshId).Ok?
      && Conserved(book, AfterLocal(book, name, order, local, replies, freshId).value.book, order.ticker,
                   if remote.quantityMatched != 0 && remote.fullyMatched then 0
                   else order.quantity - local.quantityMatched - remote.quantityMatched)
  {
    var remote := SelectPeerResult(replies, name);
    MarkOrdersLocallyValid(book, Close, order.ticker, local, freshId);
    var b := MarkOrdersLocally(book, Close, order.ticker, local, freshId).value;
    assert Conserved(book, b, order.ticker, 0);
    var reduced := order.(quantity := order.quantity - local.quantityMatched);
    AfterLocalPartial(book, name, order, local, replies, freshId, b);
    RemotePhaseConserves(b, name, reduced, replies);
    var c := RemotePhase(b, name, reduced, replies).value.book;
    var d := if remote.quantityMatched != 0 && remote.fullyMatched then 0 else reduced.quantity - remote.quantityMatched;
    ConservedChain(book, b, c, order.ticker, 0, d);
    assert 0 + d == if remote.quantityMatched != 0 && remote.fullyMatched then 0
                    else order.quantity - local.quantityMatched - remote.quantityMatched;
  }

  /** A full local match announces nothing and confirms nothing; any
      other intake announces the order once, with its quantity reduced by
      the local match, and sends at most one confirmation: to the first
      peer that replied, when its result matched anything. */
  lemma ProcessNewOrderMessages(book: Book, name: string, order: Order, replies: seq<Option<MatchResult>>,
                                freshId: string)
    requires Valid(book) && order.ticker in book
    ensures ProcessNewOrder(book, name, order, Some(replies), freshId).Ok?
    ensures var r := ProcessNewOrder(book, name, order, Some(replies), freshId).value;
      var local := SearchLocally(book, order, name).value;
      && (local.quantityMatched != 0 && local.fullyMatched ==> r.sent == [])
      && (!(local.quantityMatched != 0 && local.fullyMatched) ==>
            RemoteMessages(r.sent, order.(quantity := order.quantity - local.quantityMatched), replies))
  {
    ProcessNewOrderUnfold(book, name, order, Some(replies), freshId);
    AfterLocalMessages(book, name, order, SearchLocally(book, order, name).value, replies, freshId);
  }

  /** The same, for whatever the local search returned. */
  lemma AfterLocalMessages(book: Book, name: string, order: Order, local: MatchResult,
                           replies: seq<Option<MatchResult>>, freshId: string)
    requires Valid(book) && order.ticker in book
    ensures AfterLocal(book, name, order, local, Some(replies), freshId).Ok?
    ensures var r := AfterLocal(book, name, order, local, Some(replies), freshId).value;
      && (local.quantityMatched != 0 && local.fullyMatched ==> r.sent == [])
      && (!(local.quantityMatched != 0 && local.fullyMatched) ==>
            RemoteMessages(r.sent, order.(quantity := order.quantity - local.quantityMatched), replies))
  {
    if local.quantityMatched != 0 {
      MarkOrdersLocallyValid(book, Close, order.ticker, local, freshId);
      var b := MarkOrdersLocally(book, Close, order.ticker, local, freshId).value;
      if local.fullyMatched {
        AfterLocalFull(book, name, order, local, Some(replies), freshId, b);
      } else {
        AfterLocalPartial(book, name, order, local, Some(replies), freshId, b);
        RemotePhaseMessages(b, name, order.(quantity := order.quantity - local.quantityMatched), replies);
      }
    } else {
      assert order.(quantity := order.quantity - local.quantityMatched) == order;
      RemotePhaseMessages(book, name, order, replies);
    }
  }

  /** What the remote phase sends for `order`: the announcement first, then
      a confirmation exactly when the first peer that replied matched
      anything, addressed to that peer; nothing else. */
  ghost predicate RemoteMessages(sent: seq<Outgoing>, order: Order, replies: seq<Option<MatchResult>>)
  {
    && 1 <= |sent| <= 2
    && sent[0] == Broadcast(order)
    && ((forall j :: 0 <= j < |replies| ==> replies[j].None?) ==> |sent| == 1)
    && forall i: nat :: IsFirstReply(replies, i) ==>
         && (replies[i].value.quantityMatched != 0 <==> |sent| == 2)
         && (|sent| == 2 ==> sent[1] == Confirm(replies[i].value.serverName, order.ticker, replies[i].value))
  }

  /** The messages of the remote phase. */
  lemma RemotePhaseMessages(book: Book, name: string, order: Order, replies: seq<Option<MatchResult>>)
    requires order.ticker in book
    ensures RemoteMessages(RemotePhase(book, name, order, Some(replies)).value.sent, order, replies)
  {
    SelectPeerResultIsFirst(replies, name);
  }

  /** The close half of a local match: after `processNewOrder`, every
      order the local search named is closed, whatever the peers did.
      The order's own id and the fresh id must be new to the list, as
      `getRandomID` makes them. */
  lemma LocalCloseMarksMatched(book: Book, name: string, order: Order,
                               replies: Option<seq<Option<MatchResult>>>, freshId: string)
    requires Valid(book) && order.ticker in ValidTickers && order.quantity >= 0
    requires NonNegative(book[order.ticker]) && UniqueIds(book[order.ticker])
    requires !HasId(book[order.ticker], freshId) && !HasId(book[order.ticker], order.id)
    ensures var local := SearchLocally(book, order, name).value;
      var r := ProcessNewOrder(book, name, order, replies, freshId);
      && r.Ok?
      && (local.quantityMatched != 0 ==> MarksNamed(r.value.book[order.ticker], local.matchedOrdersIds, Close))
  {
    var t := order.ticker;
    var local := SearchLocally(book, order, name).value;
    ProcessNewOrderUnfold(book, name, order, replies, freshId);
    if local.quantityMatched != 0 {
      var closed := LocalCloseMarks(book, name, order, freshId);
      SearchIdsListed(book, order, name, order.id);
      AfterLocalKeepsMarked(book, name, order, local, replies, freshId, closed);
    } else {
      NoLocalConserves(book, name, order, local, replies, freshId);
    }
  }

  /** The local close of a search result marks every order it names. */
  lemma LocalCloseMarks(book: Book, name: string, order: Order, freshId: string) returns (closed: Book)
    requires Valid(book) && order.ticker in ValidTickers && order.quantity >= 0
    requires NonNegative(book[order.ticker]) && UniqueIds(book[order.ticker])
    requires !HasId(book[order.ticker], freshId)
    ensures var local := SearchLocally(book, order, name).value;
      && MarkOrdersLocally(book, Close, order.ticker, local, freshId) == Ok(closed)
      && MarksNamed(closed[order.ticker], local.matchedOrdersIds, Close)
  {
    var local := SearchLocally(book, order, name).value;
    SearchMarksAll(book, order, name, Close, freshId);
    MarkOrdersLocallyMeetsSpec(book, Close, order.ticker, local, freshId);
    closed := MarkOrdersLocally(book, Close, order.ticker, local, freshId).value;
  }

  /** With the search done, `processNewOrder` is the rest of the intake. */
  lemma ProcessNewOrderUnfold(book: Book, name: string, order: Order,
                              replies: Option<seq<Option<MatchResult>>>, freshId: string)
    requires order.ticker in book
    ensures ProcessNewOrder(book, name, order, replies, freshId)
         == AfterLocal(book, name, order, SearchLocally(book, order, name).value, replies, freshId)
  {
  }

  /** Once the local close has marked every named order, the rest of the
      intake keeps them marked. */
  lemma AfterLocalKeepsMarked(book: Book, name: string, order: Order, local: MatchResult,
                              replies: Option<seq<Option<MatchResult>>>, freshId: string, closed: Book)
    requires Valid(book) && order.ticker in book
    requires local.quantityMatched != 0
    requires MarkOrdersLocally(book, Close, order.ticker, local, freshId) == Ok(closed)
    requires MarksNamed(closed[order.ticker], local.matchedOrdersIds, Close)
    requires order.id !in local.matchedOrdersIds
    ensures AfterLocal(book, name, order, local, replies, freshId).Ok?
    ensures MarksNamed(AfterLocal(book, name, order, local, replies, freshId).value.book[order.ticker],
                       local.matchedOrdersIds, Close)
  {
    if local.fullyMatched {
      AfterLocalFull(book, name, order, local, replies, freshId, closed);
    } else {
      AfterLocalPartial(book, name, order, local, replies, freshId, closed);
      RemoteKeepsMarked(closed, name, order.(quantity := order.quantity - local.quantityMatched), replies,
                        local.matchedOrdersIds);
    }
  }

  /** The remote phase stores at most the residual, whose id is the
      incoming order's, so orders already marked stay marked. */
  lemma RemoteKeepsMarked(book: Book, name: string, order: Order, replies: Option<seq<Option<MatchResult>>>,
                          ids: seq<string>)
    requires order.ticker in book
    requires MarksNamed(book[order.ticker], ids, Close)
    requires order.id !in ids
    ensures RemotePhase(book, name, order, replies).Ok?
    ensures MarksNamed(RemotePhase(book, name, order, replies).value.book[order.ticker], ids, Close)
  {
    var remote := SelectPeerResult(replies, name);
    RemotePhaseBook(book, name, order, replies);
    if !(remote.quantityMatched != 0 && remote.fullyMatched) {
      StoreFound(book, Residual(order, remote));
      InsertKeepsMarked(book[order.ticker], Residual(order, remote), ids, Close);
    }
  }

  /** The remote phase stores at most the residual, under the incoming
      order's id; when that id is new to the list, ids stay unique. */
  lemma RemoteKeepsUnique(book: Book, name: string, order: Order, replies: Option<seq<Option<MatchResult>>>)
    requires order.ticker in book
    requires UniqueBook(book) && !HasId(book[order.ticker], order.id)
    ensures UniqueBook(RemotePhase(book, name, order, replies).value.book)
  {
    var remote := SelectPeerResult(replies, name);
    RemotePhaseBook(book, name, order, replies);
    if !(remote.quantityMatched != 0 && remote.fullyMatched) {
      StoreKeepsUnique(book, Residual(order, remote));
    }
  }

  /** A new order whose id, like the remainder's fresh id, names no order
      yet leaves every list's ids unique after the whole intake. */
  lemma ProcessNewOrderKeepsUnique(book: Book, name: string, order: Order,
                                   replies: Option<seq<Option<MatchResult>>>, freshId: string)
    requires Valid(book) && UniqueBook(book)
    requires FreshIn(book, freshId) && FreshIn(book, order.id) && freshId != order.id
    ensures ProcessNewOrder(book, name, order, replies, freshId).Ok? ==>
              UniqueBook(ProcessNewOrder(book, name, order, replies, freshId).value.book)
  {
    if order.ticker in book {
      var local := SearchLocally(book, order, name).value;
      ProcessNewOrderUnfold(book, name, order, replies, freshId);
      if local.quantityMatched != 0 {
        MarkOrdersLocallyKeepsUnique(book, Close, order.ticker, local, freshId);
        var closed := MarkOrdersLocally(book, Close, order.ticker, local, freshId).value;
        if local.fullyMatched {
          AfterLocalFull(book, name, order, local, replies, freshId, closed);
        } else {
          AfterLocalPartial(book, name, order, local, replies, freshId, closed);
          RemoteKeepsUnique(closed, name, order.(quantity := order.quantity - local.quantityMatched), replies);
        }
      } else {
        assert AfterLocal(book, name, order, local, replies, freshId) == RemotePhase(book, name, order, replies);
        RemoteKeepsUnique(book, name, order, replies);
      }
    }
  }

  /** The remote phase stores at most the residual; when the selected
      remote match is no larger than the order, no negative quantity
      appears. */
  lemma RemoteKeepsNonNegative(book: Book, name: string, order: Order, replies: Option<seq<Option<MatchResult>>>)
    requires order.ticker in book && NonNegativeBook(book)
    requires var remote := SelectPeerResult(replies, name);
      !(remote.quantityMatched != 0 && remote.fullyMatched) ==> remote.quantityMatched <= order.quantity
    ensures NonNegativeBook(RemotePhase(book, name, order, replies).value.book)
  {
    var remote := SelectPeerResult(replies, name);
    RemotePhaseBook(book, name, order, replies);
    if !(remote.quantityMatched != 0 && remote.fullyMatched) {
      StoreKeepsNonNegative(book, Residual(order, remote));
    }
  }

  /** An order of non-negative quantity whose remote match, when one is
      needed, is no larger than what the local match left, leaves no
      negative quantity after the whole intake. */
  lemma ProcessNewOrderKeepsNonNegative(book: Book, name: string, order: Order,
                                        replies: Option<seq<Option<MatchResult>>>, freshId: string)
    requires Valid(book) && NonNegativeBook(book) && order.quantity >= 0
    requires order.ticker in book ==>
      var local := SearchLocally(book, order, name).value;
      var remote := SelectPeerResult(replies, name);
      Rests(local, remote) ==> remote.quantityMatched <= order.quantity - local.quantityMatched
    ensures ProcessNewOrder(book, name, order, replies, freshId).Ok? ==>
              NonNegativeBook(ProcessNewOrder(book, name, order, replies, freshId).value.book)
  {
    if order.ticker in book {
      var local := SearchLocally(book, order, name).value;
      ProcessNewOrderUnfold(book, name, order, replies, freshId);
      if local.quantityMatched != 0 {
        MarkOrdersLocallyKeepsNonNegative(book, Close, order.ticker, local, freshId);
        var closed := MarkOrdersLocally(book, Close, order.ticker, local, freshId).value;
        if local.fullyMatched {
          AfterLocalFull(book, name, order, local, replies, freshId, closed);
        } else {
          AfterLocalPartial(book, name, order, local, replies, freshId, closed);
          RemoteKeepsNonNegative(closed, name, order.(quantity := order.quantity - local.quantityMatched), replies);
        }
      } else {
        assert AfterLocal(book, name, order, local, replies, freshId) == RemotePhase(book, name, order, replies);
        RemoteKeepsNonNegative(book, name, order, replies);
      }
    }
  }
}

=== FILE: matcher.dfy ===
/** The local matcher: a read-only scan of one ticker's list for the
    orders that can fill an incoming order. */
module Matcher {
  import opened Wrappers
  import opened Orders
  import opened OrderStore

  /** A candidate can fill `incoming` when it belongs to someone else, is
      on the other side, is open, and is not priced above `incoming`. The
      same price rule applies to buys and sells. */
  predicate Eligible(incoming: Order, candidate: Order)
  {
    && candidate.ownerId != incoming.ownerId
    && candidate.orderType == OppositeType(incoming.orderType)
    && candidate.status == Open
    && candidate.value <= incoming.value
  }

  /** The eligible candidates of a list, in list order. */
  function Eligibles(incoming: Order, s: seq<Order>): (r: seq<Order>)
  {
    if |s| == 0 then []
    else if Eligible(incoming, s[0]) then [s[0]] + Eligibles(incoming, s[1..])
    else Eligibles(incoming, s[1..])
  }

  /** What the scan has taken and how much it still needs. */
  datatype Scan = Scan(matched: seq<Order>, needed: int)

  /** The scan loop: skip ineligible candidates, take eligible ones until
      the need is covered. */
  function ScanOrders(s: seq<Order>, incoming: Order, needed: int): (r: Scan)
    ensures IsSubsequence(r.matched, s)
    ensures forall j :: 0 <= j < |r.matched| ==> Eligible(incoming, r.matched[j])
    ensures r.needed == 0 || r.needed == needed - SumQty(r.matched)
    ensures needed >= 0 ==> r.needed >= 0
    ensures needed >= 0 ==> (r.needed == 0 <==> SumQty(r.matched) >= needed)
    ensures needed > 0 && |r.matched| > 0 ==> SumQty(r.matched[..|r.matched| - 1]) < needed
  {
    if |s| == 0 || needed == 0 then Scan([], needed)
    else if !Eligible(incoming, s[0]) then
      var r := ScanOrders(s[1..], incoming, needed);
      assert |r.matched| > 0 ==> !(r.matched[0] == s[0]);
      r
    else if s[0].quantity >= needed then
      assert [s[0]][1..] == [];
      assert [s[0]][..0] == [];
      Scan([s[0]], 0)
    else
      var rest := ScanOrders(s[1..], incoming, needed - s[0].quantity);
      ConsInit(s[0], rest.matched);
      Scan([s[0]] + rest.matched, rest.needed)
  }

  /** Taking the head off, or the last element off, a list built by
      prepending `x`. */
  lemma ConsInit(x: Order, rest: seq<Order>)
    ensures ([x] + rest)[1..] == rest
    ensures |rest| > 0 ==> ([x] + rest)[..|rest|][1..] == rest[..|rest| - 1]
    ensures |rest| == 0 ==> ([x] + rest)[..0] == []
  {
  }

  /** The orders `searchOrdersLocally` picks for `incoming` from `s`. */
  function MatchedOrders(s: seq<Order>, incoming: Order): (r: seq<Order>)
  {
    ScanOrders(s, incoming, incoming.quantity).matched
  }

  /** `searchOrdersLocally`: scan the incoming order's ticker list. The
      book is a value, so the search cannot modify it. */
  function SearchLocally(book: Book, incoming: Order, name: string): (r: Result<MatchResult, BookError>)
    ensures r.Ok? <==> incoming.ticker in book
    ensures r.Ok? ==> r.value.serverName == name
    ensures r.Ok? ==> (r.value.fullyMatched <==> r.value.quantityMatched == incoming.quantity)
    ensures r.Ok? ==> r.value.matchedOrdersIds == Ids(MatchedOrders(book[incoming.ticker], incoming))
    ensures r.Ok? ==> forall k :: 0 <= k < |r.value.matchedOrdersIds| ==>
      exists i :: 0 <= i < |book[incoming.ticker]|
        && book[incoming.ticker][i].id == r.value.matchedOrdersIds[k]
        && Eligible(incoming, book[incoming.ticker][i])
    ensures r.Ok? && incoming.quantity >= 0 ==>
      r.value.quantityMatched == Min(SumQty(MatchedOrders(book[incoming.ticker], incoming)), incoming.quantity)
    ensures r.Ok? && incoming.quantity >= 0 && NonNegative(book[incoming.ticker]) ==>
      0 <= r.value.quantityMatched <= incoming.quantity
  {
    if incoming.ticker !in book then Err(TickerNotFound(incoming.ticker))
    else
      var s := book[incoming.ticker];
      var sc := ScanOrders(s, incoming, incoming.quantity);
      SubsequenceMembers(sc.matched, s);
      assert forall k :: 0 <= k < |sc.matched| ==>
        exists i :: 0 <= i < |s| && s[i].id == sc.matched[k].id && Eligible(incoming, s[i]) by {
        forall k | 0 <= k < |sc.matched|
          ensures exists i :: 0 <= i < |s| && s[i].id == sc.matched[k].id && Eligible(incoming, s[i])
        {
          assert sc.matched[k] in s;
        }
      }
      if incoming.quantity >= 0 && NonNegative(s) then
        SubsequenceNonNegative(sc.matched, s);
        NonNegativeSum(sc.matched);
        Ok(MatchResult(sc.needed == 0, Ids(sc.matched), incoming.quantity - sc.needed, name))
      else
        Ok(MatchResult(sc.needed == 0, Ids(sc.matched), incoming.quantity - sc.needed, name))
  }

  /** The matched orders are exactly the shortest run of eligible
      candidates, from the cheapest end, whose quantities cover the
      incoming quantity, or all eligible candidates when none does. */
  predicate IsFillPrefix(eligible: seq<Order>, wanted: int, m: seq<Order>)
  {
    && |m| <= |eligible|
    && m == eligible[..|m|]
    && (forall j :: 0 <= j < |m| ==> SumQty(eligible[..j]) < wanted)
    && (|m| == |eligible| || SumQty(m) >= wanted)
  }

  lemma {:induction false} ScanIsFillPrefix(s: seq<Order>, incoming: Order, needed: int)
    requires needed >= 0
    ensures IsFillPrefix(Eligibles(incoming, s), needed, ScanOrders(s, incoming, needed).matched)
  {
    var e := Eligibles(incoming, s);
    var m := ScanOrders(s, incoming, needed).matched;
    if |s| == 0 || needed == 0 {
      assert e[..0] == [];
    } else if !Eligible(incoming, s[0]) {
      ScanIsFillPrefix(s[1..], incoming, needed);
    } else if s[0].quantity >= needed {
      assert e[..1] == [s[0]];
      assert e[..0] == [];
    } else {
      var n' := needed - s[0].quantity;
      var e' := Eligibles(incoming, s[1..]);
      var m' := ScanOrders(s[1..], incoming, n').matched;
      ScanIsFillPrefix(s[1..], incoming, n');
      assert e == [s[0]] + e';
      assert m == [s[0]] + m';
      assert m == e[..|m|];
      forall j | 0 <= j < |m|
        ensures SumQty(e[..j]) < needed
      {
        if j == 0 {
          assert e[..0] == [];
        } else {
          assert e[..j] == [s[0]] + e'[..j - 1];
          assert e[..j][1..] == e'[..j - 1];
        }
      }
      assert m[1..] == m';
    }
  }

  /** The matched orders are the fill prefix of the eligible candidates. */
  lemma MatchedOrdersFirstFill(s: seq<Order>, incoming: Order)
    requires incoming.quantity >= 0
    ensures IsFillPrefix(Eligibles(incoming, s), incoming.quantity, MatchedOrders(s, incoming))
  {
    ScanIsFillPrefix(s, incoming, incoming.quantity);
  }

  /** Every matched order but the last is consumed whole: with
      non-negative quantities none of them exceeds the matched quantity. */
  lemma MatchedBeforeLastWithinMatch(book: Book, incoming: Order, name: string, j: nat)
    requires incoming.ticker in book
    requires incoming.quantity >= 0
    requires NonNegative(book[incoming.ticker])
    requires j + 1 < |MatchedOrders(book[incoming.ticker], incoming)|
    ensures MatchedOrders(book[incoming.ticker], incoming)[j].quantity
         <= SearchLocally(book, incoming, name).value.quantityMatched
  {
    var s := book[incoming.ticker];
    var m := MatchedOrders(s, incoming);
    var r := SearchLocally(book, incoming, name).value;
    SubsequenceNonNegative(m, s);
    BeforeLastWithin(m, j);
  }

  /** In a list without negative quantities, an element before the last
      holds no more than all but the last together, and they no more than
      the whole list. */
  lemma BeforeLastWithin(m: seq<Order>, j: nat)
    requires NonNegative(m) && j + 1 < |m|
    ensures m[j].quantity <= SumQty(m[..|m| - 1]) <= SumQty(m)
  {
    var init := m[..|m| - 1];
    assert init[j] == m[j];
    ElementAtMostSum(init, j);
    assert m == init + [m[|m| - 1]];
    SumQtyConcat(init, [m[|m| - 1]]);
  }
}

=== FILE: orders.dfy ===
/** Orders, match results and the small sequence vocabulary shared by the
    order store, the local matcher and the settlement applier. */
module Orders {
  import opened Wrappers

  datatype OrderType = Buy | Sell

  /** `open` can match; `locked` is reserved by a cross-peer handshake;
      `close` is terminal and waits for the sweep. */
  datatype Status = Open | Close | Locked

  /** The instruments the book pre-allocates a list for. */
  const BtcUsd: string := "btc-usd"
  const EthUsd: string := "eth-usd"
  const XauUsd: string := "xau-usd"
  const ValidTickers: set<string> := {BtcUsd, EthUsd, XauUsd}

  /** Prices and quantities are modelled as unbounded integers. */
  datatype Order = Order(
    id: string,
    ticker: string,
    orderType: OrderType,
    value: int,
    quantity: int,
    ownerId: string,
    status: Status,
    lockExpiresAt: Option<int>)

  datatype MatchResult = MatchResult(
    fullyMatched: bool,
    matchedOrdersIds: seq<string>,
    quantityMatched: int,
    serverName: string)

  /** The errors that abort a book operation: a ticker with no list
      (the list lookup yields nothing and the access throws) and an
      update of an id that is not in its ticker's list. */
  datatype BookError = TickerNotFound(ticker: string) | OrderNotFound(ticker: string, id: string)

  /** A partial order: the fields an update supplies. */
  datatype Patch = Patch(
    id: Option<string>,
    ticker: Option<string>,
    orderType: Option<OrderType>,
    value: Option<int>,
    quantity: Option<int>,
    ownerId: Option<string>,
    status: Option<Status>,
    lockExpiresAt: Option<Option<int>>)

  const NoChange: Patch := Patch(None, None, None, None, None, None, None, None)

  function Pick<T>(supplied: Option<T>, current: T): (r: T)
  {
    match supplied
    case Some(v) => v
    case None => current
  }

  /** Object spread `{...current, ...patch}`: supplied fields win. */
  function Merge(current: Order, patch: Patch): (r: Order)
  {
    Order(
      Pick(patch.id, current.id),
      Pick(patch.ticker, current.ticker),
      Pick(patch.orderType, current.orderType),
      Pick(patch.value, current.value),
      Pick(patch.quantity, current.quantity),
      Pick(patch.ownerId, current.ownerId),
      Pick(patch.status, current.status),
      Pick(patch.lockExpiresAt, current.lockExpiresAt))
  }

  /** The side an incoming order trades against. */
  function OppositeType(t: OrderType): (r: OrderType)
    ensures r != t
  {
    if t == Buy then Sell else Buy
  }

  /** Total quantity of a list of orders. */
  function SumQty(s: seq<Order>): (total: int)
  {
    if |s| == 0 then 0 else s[0].quantity + SumQty(s[1..])
  }

  /** Total quantity of the orders of a list that carry status `st`. */
  function QtyWithStatus(st: Status, s: seq<Order>): (total: int)
  {
    if |s| == 0 then 0
    else (if s[0].status == st then s[0].quantity else 0) + QtyWithStatus(st, s[1..])
  }

  predicate Sorted(s: seq<Order>)
  {
    forall i, j :: 0 <= i < j < |s| ==> s[i].value <= s[j].value
  }

  predicate NonNegative(s: seq<Order>)
  {
    forall i :: 0 <= i < |s| ==> s[i].quantity >= 0
  }

  predicate UniqueIds(s: seq<Order>)
  {
    forall i, j :: 0 <= i < j < |s| ==> s[i].id != s[j].id
  }

  predicate HasId(s: seq<Order>, id: string)
  {
    exists i :: 0 <= i < |s| && s[i].id == id
  }

  function Ids(s: seq<Order>): (r: seq<string>)
    ensures |r| == |s|
    ensures forall i :: 0 <= i < |s| ==> r[i] == s[i].id
  {
    seq(|s|, i requires 0 <= i < |s| => s[i].id)
  }

  /** `a` is `b` with some elements deleted, the rest kept in order. */
  predicate IsSubsequence(a: seq<Order>, b: seq<Order>)
    decreases |b|
  {
    if |a| == 0 then true
    else if |b| == 0 then false
    else (a[0] == b[0] && IsSubsequence(a[1..], b[1..])) || IsSubsequence(a, b[1..])
  }

  /** `Array.prototype.findIndex` by id: the first position holding `id`. */
  function FindIndex(s: seq<Order>, id: string): (r: Option<nat>)
    ensures r.Some? ==> r.value < |s| && s[r.value].id == id
    ensures r.Some? ==> forall j :: 0 <= j < r.value ==> s[j].id != id
    ensures r.None? <==> !HasId(s, id)
  {
    if |s| == 0 then None
    else if s[0].id == id then Some(0)
    else match FindIndex(s[1..], id)
      case None => None
      case Some(k) => Some(k + 1)
  }

  lemma SumQtyConcat(a: seq<Order>, b: seq<Order>)
    ensures SumQty(a + b) == SumQty(a) + SumQty(b)
  {
    if |a| == 0 {
      assert a + b == b;
    } else {
      assert (a + b)[1..] == a[1..] + b;
      SumQtyConcat(a[1..], b);
    }
  }

  lemma QtyWithStatusConcat(st: Status, a: seq<Order>, b: seq<Order>)
    ensures QtyWithStatus(st, a + b) == QtyWithStatus(st, a) + QtyWithStatus(st, b)
  {
    if |a| == 0 {
      assert a + b == b;
    } else {
      assert (a + b)[1..] == a[1..] + b;
      QtyWithStatusConcat(st, a[1..], b);
    }
  }

  /** Replacing one element changes the total by the difference. */
  lemma SumQtyUpdate(s: seq<Order>, p: nat, x: Order)
    requires p < |s|
    ensures SumQty(s[p := x]) == SumQty(s) - s[p].quantity + x.quantity
  {
    assert s == s[..p] + [s[p]] + s[p + 1..];
    assert s[p := x] == s[..p] + [x] + s[p + 1..];
    SumQtyConcat(s[..p] + [s[p]], s[p + 1..]);
    SumQtyConcat(s[..p], [s[p]]);
    SumQtyConcat(s[..p] + [x], s[p + 1..]);
    SumQtyConcat(s[..p], [x]);
  }

  lemma QtyWithStatusUpdate(st: Status, s: seq<Order>, p: nat, x: Order)
    requires p < |s|
    ensures QtyWithStatus(st, s[p := x])
         == QtyWithStatus(st, s) - (if s[p].status == st then s[p].quantity else 0)
                                 + (if x.status == st then x.quantity else 0)
  {
    assert s == s[..p] + [s[p]] + s[p + 1..];
    assert s[p := x] == s[..p] + [x] + s[p + 1..];
    QtyWithStatusConcat(st, s[..p] + [s[p]], s[p + 1..]);
    QtyWithStatusConcat(st, s[..p], [s[p]]);
    QtyWithStatusConcat(st, s[..p] + [x], s[p + 1..]);
    QtyWithStatusConcat(st, s[..p], [x]);
  }

  /** Lists that agree position by position on quantity have the same total. */
  lemma {:induction false} SumQtySameQuantities(a: seq<Order>, b: seq<Order>)
    requires |a| == |b|
    requires forall i :: 0 <= i < |a| ==> a[i].quantity == b[i].quantity
    ensures SumQty(a) == SumQty(b)
  {
    if |a| > 0 {
      SumQtySameQuantities(a[1..], b[1..]);
    }
  }

  /** Replacing an order by one at the same price keeps a list sorted. */
  lemma SortedSamePrice(s: seq<Order>, p: nat, x: Order)
    requires Sorted(s) && p < |s| && x.value == s[p].value
    ensures Sorted(s[p := x])
  {
    assert forall i :: 0 <= i < |s| ==> s[p := x][i].value == s[i].value;
  }

  /** The first position holding `id` is what `FindIndex` finds. */
  lemma FindIndexFirst(s: seq<Order>, id: string, v: nat)
    requires v < |s| && s[v].id == id
    requires forall j :: 0 <= j < v ==> s[j].id != id
    ensures FindIndex(s, id) == Some(v)
  {
    var w := FindIndex(s, id).value;
  }

  /** Lists that agree position by position on id have the same `FindIndex`. */
  lemma FindIndexSameIds(a: seq<Order>, b: seq<Order>, id: string)
    requires |a| == |b|
    requires forall i :: 0 <= i < |a| ==> a[i].id == b[i].id
    ensures FindIndex(a, id) == FindIndex(b, id)
  {
    match FindIndex(a, id)
    case None =>
      assert !HasId(b, id);
    case Some(v) =>
      FindIndexFirst(b, id, v);
  }

  /** With unique ids, the position of an order is where its id is found. */
  lemma FindIndexUnique(s: seq<Order>, i: nat)
    requires UniqueIds(s)
    requires i < |s|
    ensures FindIndex(s, s[i].id) == Some(i)
  {
  }

  /** In a list of non-negative quantities, no element exceeds the total. */
  lemma {:induction false} ElementAtMostSum(s: seq<Order>, j: nat)
    requires NonNegative(s)
    requires j < |s|
    ensures s[j].quantity <= SumQty(s)
    ensures SumQty(s) >= 0
  {
    if j == 0 {
      NonNegativeSum(s[1..]);
    } else {
      ElementAtMostSum(s[1..], j - 1);
    }
  }

  lemma {:induction false} NonNegativeSum(s: seq<Order>)
    requires NonNegative(s)
    ensures SumQty(s) >= 0
  {
    if |s| > 0 {
      NonNegativeSum(s[1..]);
    }
  }

  lemma {:induction false} SubsequenceMembers(a: seq<Order>, b: seq<Order>)
    requires IsSubsequence(a, b)
    ensures forall x :: x in a ==> x in b
    decreases |b|
  {
    if |a| > 0 {
      if a[0] == b[0] && IsSubsequence(a[1..], b[1..]) {
        SubsequenceMembers(a[1..], b[1..]);
        assert forall x :: x in a ==> x == a[0] || x in a[1..];
      } else {
        SubsequenceMembers(a, b[1..]);
      }
    }
  }

  /** A subsequence of a list without negative quantities has none either. */
  lemma SubsequenceNonNegative(a: seq<Order>, b: seq<Order>)
    requires IsSubsequence(a, b) && NonNegative(b)
    ensures NonNegative(a)
  {
    SubsequenceMembers(a, b);
    forall i | 0 <= i < |a|
      ensures a[i].quantity >= 0
    {
      assert a[i] in b;
    }
  }

  /** A subsequence of a sorted list is sorted. */
  lemma {:induction false} SubsequenceSorted(a: seq<Order>, b: seq<Order>)
    requires IsSubsequence(a, b)
    requires Sorted(b)
    ensures Sorted(a)
    decreases |b|
  {
    if |a| > 0 {
      if a[0] == b[0] && IsSubsequence(a[1..], b[1..]) {
        SubsequenceSorted(a[1..], b[1..]);
        SubsequenceMembers(a[1..], b[1..]);
        forall j | 0 < j < |a|
          ensures a[0].value <= a[j].value
        {
          assert a[j] in a[1..];
        }
      } else {
        SubsequenceSorted(a, b[1..]);
      }
    }
  }

  /** A subsequence of a list with unique ids has unique ids. */
  lemma {:induction false} SubsequenceUniqueIds(a: seq<Order>, b: seq<Order>)
    requires IsSubsequence(a, b)
    requires UniqueIds(b)
    ensures UniqueIds(a)
    decreases |b|
  {
    if |a| > 0 {
      if a[0] == b[0] && IsSubsequence(a[1..], b[1..]) {
        SubsequenceUniqueIds(a[1..], b[1..]);
        SubsequenceMembers(a[1..], b[1..]);
        forall j | 0 < j < |a|
          ensures a[0].id != a[j].id
        {
          assert a[j] in a[1..];
        }
      } else {
        SubsequenceUniqueIds(a, b[1..]);
      }
    }
  }

  /** Two lists with the same id at every position name the same ids, and
      one has unique ids when the other has. */
  lemma SameIdsAt(a: seq<Order>, b: seq<Order>)
    requires |a| == |b|
    requires forall i :: 0 <= i < |a| ==> a[i].id == b[i].id
    ensures UniqueIds(b) ==> UniqueIds(a)
    ensures forall x :: HasId(a, x) <==> HasId(b, x)
  {
    forall x
      ensures HasId(a, x) <==> HasId(b, x)
    {
      if HasId(a, x) {
        var i :| 0 <= i < |a| && a[i].id == x;
        assert b[i].id == x;
      }
      if HasId(b, x) {
        var i :| 0 <= i < |b| && b[i].id == x;
        assert a[i].id == x;
      }
    }
  }

  /** With non-negative quantities, a longer prefix holds at least as much. */
  lemma PrefixSumMonotone(s: seq<Order>, k: nat, j: nat)
    requires NonNegative(s)
    requires k <= j <= |s|
    ensures SumQty(s[..k]) <= SumQty(s[..j])
  {
    assert s[..j] == s[..k] + s[k..j];
    SumQtyConcat(s[..k], s[k..j]);
    assert NonNegative(s[k..j]) by {
      assert forall i :: 0 <= i < |s[k..j]| ==> s[k..j][i] == s[k + i];
    }
    NonNegativeSum(s[k..j]);
  }
}

=== FILE: peers.dfy ===
/** The peer side of the order book: picking one result out of the
    replies to an announced order, and the handler for the two events
    peers send each other. The transport itself is not modelled: replies
    arrive as a parameter and the handler returns its reply. */
module Peers {
  import opened Wrappers
  import opened Orders
  import opened OrderStore
  import opened Matcher
  import opened Settlement

  /** The zero result a peer reports when nobody could match. */
  function NoMatch(name: string): (r: MatchResult)
  {
    MatchResult(false, [], 0, name)
  }

  /** The replies that are present, in arrival order: peers that timed
      out or failed reply with nothing and are dropped. */
  function Present(replies: seq<Option<MatchResult>>): (r: seq<MatchResult>)
    ensures |r| <= |replies|
  {
    if |replies| == 0 then []
    else if replies[0].Some? then [replies[0].value] + Present(replies[1..])
    else Present(replies[1..])
  }

  /** `searchOrdersWithPeers` after the broadcast: an absent overall reply
      counts as no replies; the first present result wins; with none, the
      zero result under this peer's own name. */
  function SelectPeerResult(replies: Option<seq<Option<MatchResult>>>, name: string): (r: MatchResult)
    ensures replies.None? ==> r == NoMatch(name)
  {
    var actual := Present(if replies.Some? then replies.value else []);
    if |actual| == 0 then NoMatch(name) else actual[0]
  }

  /** The first present reply, independently of the filter. */
  predicate IsFirstReply(replies: seq<Option<MatchResult>>, i: nat)
  {
    && i < |replies|
    && replies[i].Some?
    && forall j :: 0 <= j < i ==> replies[j].None?
  }

  lemma {:induction false} PresentFirst(replies: seq<Option<MatchResult>>)
    ensures |Present(replies)| == 0 <==> forall j :: 0 <= j < |replies| ==> replies[j].None?
    ensures |Present(replies)| > 0 ==>
      exists i: nat :: IsFirstReply(replies, i) && replies[i].value == Present(replies)[0]
  {
    if |replies| > 0 {
      PresentFirst(replies[1..]);
      if replies[0].Some? {
        assert IsFirstReply(replies, 0);
      } else if |Present(replies[1..])| > 0 {
        var i: nat :| IsFirstReply(replies[1..], i) && replies[1..][i].value == Present(replies[1..])[0];
        assert IsFirstReply(replies, i + 1);
      } else {
        forall j | 0 <= j < |replies|
          ensures replies[j].None?
        {
          if j > 0 {
            assert replies[j] == replies[1..][j - 1];
          }
        }
      }
    }
  }

  /** Selection answers the first peer that replied, and the zero result
      exactly when none did. */
  lemma SelectPeerResultIsFirst(replies: seq<Option<MatchResult>>, name: string)
    ensures (forall j :: 0 <= j < |replies| ==> replies[j].None?) ==> SelectPeerResult(Some(replies), name) == NoMatch(name)
    ensures forall i: nat :: IsFirstReply(replies, i) ==> SelectPeerResult(Some(replies), name) == replies[i].value
  {
    PresentFirst(replies);
    forall i: nat | IsFirstReply(replies, i)
      ensures SelectPeerResult(Some(replies), name) == replies[i].value
    {
      var k: nat :| IsFirstReply(replies, k) && replies[k].value == Present(replies)[0];
    }
  }

  /** The events peers send: an order looking for liquidity, the
      confirmation of a cross-peer match, a payload whose type is missing,
      and a type no branch handles. */
  datatype Event =
    | AnnounceOpenOrder(order: Order)
    | CrossPeerMatch(ticker: string, confirmed: MatchResult)
    | Malformed
    | Unrecognised(kind: string)

  datatype Request = Request(from: string, event: Event)

  /** The book after the handler and what it replies with. */
  datatype Handled = Handled(book: Book, reply: Option<MatchResult>)

  /** `webhook`: ignore messages from this peer itself and malformed or
      unknown ones; on an announced order, search the local book and, when
      anything matched, lock the matched orders and reply with the match;
      on a confirmed cross-peer match, close the orders it names. */
  function Webhook(book: Book, name: string, req: Request, freshId: string): (r: Result<Handled, BookError>)
    ensures req.from == name ==> r == Ok(Handled(book, None))
    ensures r.Ok? ==> r.value.book.Keys == book.Keys
    ensures r.Ok? && r.value.reply.Some? ==>
      && req.event.AnnounceOpenOrder?
      && r.value.reply.value.serverName == name
      && r.value.reply.value.quantityMatched != 0
      && req.event.order.ticker in book
      && forall k :: 0 <= k < |r.value.reply.value.matchedOrdersIds| ==>
           exists i :: 0 <= i < |book[req.event.order.ticker]|
             && book[req.event.order.ticker][i].id == r.value.reply.value.matchedOrdersIds[k]
             && Eligible(req.event.order, book[req.event.order.ticker][i])
    ensures r.Ok? && !req.event.AnnounceOpenOrder? && !req.event.CrossPeerMatch? ==> r.value.book == book
  {
    if req.from == name then Ok(Handled(book, None))
    else match req.event
      case Malformed => Ok(Handled(book, None))
      case Unrecognised(_) => Ok(Handled(book, None))
      case AnnounceOpenOrder(order) =>
        (match SearchLocally(book, order, name)
         case Err(e) => Err(e)
         case Ok(m) =>
           if m.quantityMatched != 0 then
             match MarkOrdersLocally(book, Locked, order.ticker, m, freshId)
             case Err(e) => Err(e)
             case Ok(b) => Ok(Handled(b, Some(m)))
           else Ok(Handled(book, None)))
      case CrossPeerMatch(ticker, confirmed) =>
        match MarkOrdersLocally(book, Close, ticker, confirmed, freshId)
        case Err(e) => Err(e)
        case Ok(b) => Ok(Handled(b, None))
  }

  /** The tickers an event makes the handler look up. */
  predicate EventTickersValid(e: Event)
  {
    match e
    case AnnounceOpenOrder(order) => order.ticker in ValidTickers
    case CrossPeerMatch(ticker, _) => ticker in ValidTickers
    case _ => true
  }

  /** On a valid book, an event about a valid ticker is handled without
      error, keeps the book valid and conserves each ticker's total
      quantity; an announce of an unknown ticker aborts. */
  lemma WebhookKeepsValid(book: Book, name: string, req: Request, freshId: string)
    requires Valid(book)
    ensures EventTickersValid(req.event) ==> Webhook(book, name, req, freshId).Ok?
    ensures EventTickersValid(req.event) ==>
      var b := Webhook(book, name, req, freshId).value.book;
      Valid(b) && forall t :: t in book ==> SumQty(b[t]) == SumQty(book[t])
    ensures req.from != name && req.event.AnnounceOpenOrder? && req.event.order.ticker !in ValidTickers ==>
      Webhook(book, name, req, freshId) == Err(TickerNotFound(req.event.order.ticker))
  {
    if req.from != name && EventTickersValid(req.event) {
      match req.event
      case AnnounceOpenOrder(order) =>
        var m := SearchLocally(book, order, name).value;
        if m.quantityMatched != 0 {
          MarkOrdersLocallyValid(book, Locked, order.ticker, m, freshId);
        }
      case CrossPeerMatch(ticker, confirmed) =>
        MarkOrdersLocallyValid(book, Close, ticker, confirmed, freshId);
      case Malformed =>
      case Unrecognised(_) =>
    }
  }

  /** With a fresh id for a split's remainder, handling any message keeps
      every list's ids unique, so the next search again sees each order
      once. */
  lemma WebhookKeepsUnique(book: Book, name: string, req: Request, freshId: string)
    requires Valid(book) && UniqueBook(book) && FreshIn(book, freshId)
    ensures Webhook(book, name, req, freshId).Ok? ==> UniqueBook(Webhook(book, name, req, freshId).value.book)
  {
    if req.from != name {
      match req.event
      case AnnounceOpenOrder(order) =>
        if order.ticker in book {
          var m := SearchLocally(book, order, name).value;
          if m.quantityMatched != 0 {
            MarkOrdersLocallyKeepsUnique(book, Locked, order.ticker, m, freshId);
          }
        }
      case CrossPeerMatch(ticker, confirmed) =>
        if ticker in book {
          MarkOrdersLocallyKeepsUnique(book, Close, ticker, confirmed, freshId);
        }
      case Malformed =>
      case Unrecognised(_) =>
    }
  }

  /** The quantities another peer's message carries are not negative:
      the order it announces, and the match it confirms. */
  predicate EventQuantitiesNonNegative(e: Event)
  {
    match e
    case AnnounceOpenOrder(order) => order.quantity >= 0
    case CrossPeerMatch(_, confirmed) => confirmed.quantityMatched >= 0
    case _ => true
  }

  /** A message carrying no negative quantity leaves none in the book, so
      the search lemmas, which need non-negative lists, apply again to
      the next event. */
  lemma WebhookKeepsNonNegative(book: Book, name: string, req: Request, freshId: string)
    requires Valid(book) && NonNegativeBook(book)
    requires EventQuantitiesNonNegative(req.event)
    ensures Webhook(book, name, req, freshId).Ok? ==> NonNegativeBook(Webhook(book, name, req, freshId).value.book)
  {
    if req.from != name {
      match req.event
      case AnnounceOpenOrder(order) =>
        if order.ticker in book {
          var m := SearchLocally(book, order, name).value;
          if m.quantityMatched != 0 {
            MarkOrdersLocallyKeepsNonNegative(book, Locked, order.ticker, m, freshId);
          }
        }
      case CrossPeerMatch(ticker, confirmed) =>
        if ticker in book {
          MarkOrdersLocallyKeepsNonNegative(book, Close, ticker, confirmed, freshId);
        }
      case Malformed =>
      case Unrecognised(_) =>
    }
  }

  /** The ids of a search result are distinct, and every proper prefix of
      them names no more than the matched quantity: only the last order
      the search picked can hold more than is still needed. */
  lemma SearchPrefixesWithin(book: Book, incoming: Order, name: string)
    requires incoming.ticker in book
    requires incoming.quantity >= 0
    requires NonNegative(book[incoming.ticker]) && UniqueIds(book[incoming.ticker])
    ensures var m := SearchLocally(book, incoming, name).value;
      && Distinct(m.matchedOrdersIds)
      && PrefixesWithin(book[incoming.ticker], m.matchedOrdersIds, m.quantityMatched)
  {
    var s := book[incoming.ticker];
    var mo := MatchedOrders(s, incoming);
    var m := SearchLocally(book, incoming, name).value;
    SubsequenceMembers(mo, s);
    SubsequenceUniqueIds(mo, s);
    SubsequenceNonNegative(mo, s);
    if |mo| > 0 {
      PrefixSumMonotone(mo, |mo| - 1, |mo|);
      assert mo[..|mo|] == mo;
    }
    forall k | 0 < k < |m.matchedOrdersIds|
      ensures FoundQty(s, m.matchedOrdersIds[..k]) <= m.quantityMatched
    {
      PrefixFoundWithin(s, mo, k, m.quantityMatched);
    }
  }

  /** A proper prefix of the matched orders names at most what all but the
      last of them hold. */
  lemma PrefixFoundWithin(s: seq<Order>, mo: seq<Order>, k: nat, bound: int)
    requires UniqueIds(s) && NonNegative(mo)
    requires forall x :: x in mo ==> x in s
    requires 0 < k < |mo|
    requires SumQty(mo[..|mo| - 1]) <= bound
    ensures FoundQty(s, Ids(mo)[..k]) <= bound
  {
    assert Ids(mo)[..k] == Ids(mo[..k]);
    assert forall x :: x in mo[..k] ==> x in mo;
    FoundQtyOfOrders(s, mo[..k]);
    PrefixSumMonotone(mo, k, |mo| - 1);
  }

  /** Every id but the last names an order the match's total covers, so
      the loop of `markOrdersLocally` can split only at the last id. */
  predicate SplitsOnlyLast(s: seq<Order>, ids: seq<string>, quantityMatched: int)
  {
    forall j :: 0 <= j < |ids| - 1 ==> !SplitsAt(s, ids[j], quantityMatched)
  }

  lemma SplitsOnlyLastPoint(s: seq<Order>, ids: seq<string>, quantityMatched: int)
    requires SplitsOnlyLast(s, ids, quantityMatched)
    ensures SplitPoint(s, ids, quantityMatched) + 1 >= |ids|
  {
    var k := SplitPoint(s, ids, quantityMatched);
    if k < |ids| {
      assert SplitsAt(s, ids[k], quantityMatched);
    }
  }

  /** A search result can split only at its last id: every earlier order
      it names is consumed whole and holds no more than the match. */
  lemma SearchSplitsOnlyLast(book: Book, incoming: Order, name: string)
    requires incoming.ticker in book
    requires incoming.quantity >= 0
    requires NonNegative(book[incoming.ticker]) && UniqueIds(book[incoming.ticker])
    ensures var m := SearchLocally(book, incoming, name).value;
      SplitsOnlyLast(book[incoming.ticker], m.matchedOrdersIds, m.quantityMatched)
  {
    var s := book[incoming.ticker];
    var mo := MatchedOrders(s, incoming);
    var m := SearchLocally(book, incoming, name).value;
    SubsequenceMembers(mo, s);
    forall j | 0 <= j < |m.matchedOrdersIds| - 1
      ensures !SplitsAt(s, m.matchedOrdersIds[j], m.quantityMatched)
    {
      assert m.matchedOrdersIds[j] == mo[j].id;
      assert mo[j] in s;
      var i :| 0 <= i < |s| && s[i] == mo[j];
      FindIndexUnique(s, i);
      MatchedBeforeLastWithinMatch(book, incoming, name, j);
    }
  }

  /** A search result names only ids of the ticker's list. */
  lemma SearchIdsListed(book: Book, incoming: Order, name: string, id: string)
    requires incoming.ticker in book
    requires !HasId(book[incoming.ticker], id)
    ensures id !in SearchLocally(book, incoming, name).value.matchedOrdersIds
  {
    var s := book[incoming.ticker];
    var ids := SearchLocally(book, incoming, name).value.matchedOrdersIds;
    forall k | 0 <= k < |ids|
      ensures ids[k] != id
    {
      var i :| 0 <= i < |s| && s[i].id == ids[k] && Eligible(incoming, s[i]);
    }
  }

  /** Marking a search result, with a fresh id for the remainder, leaves
      every order the result names with status `markAs`. */
  lemma SearchMarksAll(book: Book, incoming: Order, name: string, markAs: Status, freshId: string)
    requires incoming.ticker in book
    requires incoming.quantity >= 0
    requires NonNegative(book[incoming.ticker]) && UniqueIds(book[incoming.ticker])
    requires !HasId(book[incoming.ticker], freshId)
    ensures var m := SearchLocally(book, incoming, name).value;
      MarksNamed(MarkedList(book[incoming.ticker], markAs, m.matchedOrdersIds, m.quantityMatched, freshId),
                 m.matchedOrdersIds, markAs)
  {
    var s := book[incoming.ticker];
    var m := SearchLocally(book, incoming, name).value;
    SearchSplitsOnlyLast(book, incoming, name);
    SplitsOnlyLastPoint(s, m.matchedOrdersIds, m.quantityMatched);
    SearchIdsListed(book, incoming, name, freshId);
    MarkedListMarksAll(s, markAs, m.matchedOrdersIds, m.quantityMatched, freshId);
  }

  /** Search-then-lock: an announce from another peer, for a valid ticker
      of a valid book, is answered exactly when the local search matched
      anything, and the answer is that search result; an unanswered
      announce leaves the book as it was. */
  lemma AnnounceAnswersMatch(book: Book, name: string, from: string, order: Order, freshId: string)
    requires Valid(book) && order.ticker in ValidTickers && from != name
    ensures var h := Webhook(book, name, Request(from, AnnounceOpenOrder(order)), freshId);
      var m := SearchLocally(book, order, name).value;
      && h.Ok?
      && (h.value.reply.Some? <==> m.quantityMatched != 0)
      && (h.value.reply.Some? ==> h.value.reply.value == m)
      && (h.value.reply.None? ==> h.value.book == book)
  {
    var m := SearchLocally(book, order, name).value;
    if m.quantityMatched != 0 {
      MarkOrdersLocallyValid(book, Locked, order.ticker, m, freshId);
    }
  }

  /** No double match: once an announce has locked what it matched, none
      of those orders can be matched by any later incoming order until a
      confirmation closes them. */
  lemma AnnounceLocksMatched(book: Book, name: string, from: string, order: Order, freshId: string)
    requires Valid(book) && order.ticker in ValidTickers && from != name
    requires order.quantity >= 0
    requires NonNegative(book[order.ticker]) && UniqueIds(book[order.ticker])
    requires !HasId(book[order.ticker], freshId)
    ensures var h := Webhook(book, name, Request(from, AnnounceOpenOrder(order)), freshId);
      && h.Ok?
      && (h.value.reply.Some? <==> SearchLocally(book, order, name).value.quantityMatched != 0)
      && (h.value.reply.Some? ==>
            var ids := h.value.reply.value.matchedOrdersIds;
            var after := h.value.book[order.ticker];
            forall i :: 0 <= i < |after| && after[i].id in ids ==>
              after[i].status == Locked && forall later: Order :: !Eligible(later, after[i]))
  {
    var m := SearchLocally(book, order, name).value;
    if m.quantityMatched != 0 {
      SearchMarksAll(book, order, name, Locked, freshId);
      MarkOrdersLocallyMeetsSpec(book, Locked, order.ticker, m, freshId);
    }
  }

  /** The confirm half of the handshake: a confirmation that can split
      only at its last id closes every order it names. The condition is
      stated on the book the confirmation arrives at, which the lock of
      the earlier announce has already changed. */
  lemma ConfirmClosesNamed(book: Book, name: string, from: string, ticker: string, confirmed: MatchResult,
                           freshId: string)
    requires Valid(book) && ticker in ValidTickers && from != name
    requires UniqueIds(book[ticker])
    requires freshId !in confirmed.matchedOrdersIds
    requires SplitsOnlyLast(book[ticker], confirmed.matchedOrdersIds, confirmed.quantityMatched)
    ensures var h := Webhook(book, name, Request(from, CrossPeerMatch(ticker, confirmed)), freshId);
      && h.Ok? && h.value.reply.None?
      && MarksNamed(h.value.book[ticker], confirmed.matchedOrdersIds, Close)
  {
    var ids := confirmed.matchedOrdersIds;
    SplitsOnlyLastPoint(book[ticker], ids, confirmed.quantityMatched);
    MarkedListMarksAll(book[ticker], Close, ids, confirmed.quantityMatched, freshId);
    MarkOrdersLocallyMeetsSpec(book, Close, ticker, confirmed, freshId);
  }
}

=== FILE: settlement.dfy ===
/** The settlement applier: give the orders a match names a status, and
    split the order that holds more than the match needs. */
module Settlement {
  import opened Wrappers
  import opened Orders
  import opened OrderStore
  import opened Matcher

  /** The open order that keeps what a split order held beyond the match:
      same ticker, side, price and owner, a fresh id. */
  function Remainder(o: Order, quantityMatched: int, freshId: string): (rem: Order)
  {
    o.(id := freshId, quantity := o.quantity - quantityMatched, status := Open)
  }

  function MarkPatch(markAs: Status): (patch: Patch)
  {
    NoChange.(status := Some(markAs))
  }

  function SplitPatch(markAs: Status, quantity: int): (patch: Patch)
  {
    NoChange.(status := Some(markAs), quantity := Some(quantity))
  }

  /** `markOrdersLocally`. */
  function MarkOrdersLocally(book: Book, markAs: Status, ticker: string, m: MatchResult, freshId: string)
    : (r: Result<Book, BookError>)
    ensures r.Ok? ==> r.value.Keys == book.Keys
    ensures r.Err? ==> |m.matchedOrdersIds| > 0
    ensures |m.matchedOrdersIds| == 0 ==> r == Ok(book)
    ensures |m.matchedOrdersIds| > 0 && ticker !in book ==> r == Err(TickerNotFound(ticker))
  {
    MarkIds(book, markAs, ticker, m.matchedOrdersIds, m.quantityMatched, freshId)
  }

  /** The loop of `markOrdersLocally`: every id is looked up in the
      current list and compared with the match's TOTAL quantity; a
      missing id is skipped, a larger order is split and ends the loop,
      any other order is marked whole. */
  function MarkIds(book: Book, markAs: Status, ticker: string, ids: seq<string>, quantityMatched: int,
                   freshId: string): (r: Result<Book, BookError>)
    ensures r.Ok? ==> r.value.Keys == book.Keys
    ensures r.Err? ==> |ids| > 0
    ensures |ids| == 0 ==> r == Ok(book)
    ensures |ids| > 0 && ticker !in book ==> r == Err(TickerNotFound(ticker))
    decreases |ids|
  {
    if |ids| == 0 then Ok(book)
    else if ticker !in book then Err(TickerNotFound(ticker))
    else match FindIndex(book[ticker], ids[0])
      case None => MarkIds(book, markAs, ticker, ids[1..], quantityMatched, freshId)
      case Some(p) =>
        var o := book[ticker][p];
        if o.quantity > quantityMatched then
          match Update(book, o, SplitPatch(markAs, quantityMatched))
          case Err(e) => Err(e)
          case Ok(b1) => Store(b1, Remainder(o, quantityMatched, freshId))
        else
          match Update(book, o, MarkPatch(markAs))
          case Err(e) => Err(e)
          case Ok(b1) => MarkIds(b1, markAs, ticker, ids[1..], quantityMatched, freshId)
  }

  /** The order `id` names in `s` holds more than `quantityMatched`. */
  predicate SplitsAt(s: seq<Order>, id: string, quantityMatched: int)
  {
    match FindIndex(s, id)
    case Some(p) => s[p].quantity > quantityMatched
    case None => false
  }

  /** The position in `ids` where the loop splits an order and stops, or
      `|ids|` when it runs to the end. */
  function SplitPoint(s: seq<Order>, ids: seq<string>, quantityMatched: int): (k: nat)
    ensures k <= |ids|
    ensures forall j :: 0 <= j < k ==> !SplitsAt(s, ids[j], quantityMatched)
    ensures k < |ids| ==> SplitsAt(s, ids[k], quantityMatched)
  {
    if |ids| == 0 then 0
    else if SplitsAt(s, ids[0], quantityMatched) then 0
    else 1 + SplitPoint(s, ids[1..], quantityMatched)
  }

  /** `s` with the order each id of `done` names given status `markAs`. */
  function StatusMarked(s: seq<Order>, markAs: Status, done: seq<string>): (r: seq<Order>)
  {
    seq(|s|, i requires 0 <= i < |s| =>
      if s[i].id in done && FindIndex(s, s[i].id) == Some(i) then s[i].(status := markAs) else s[i])
  }

  /** What marking does to a ticker list, stated without the loop: the
      orders named before the split point get status `markAs`; the order
      at the split point gets `markAs` and quantity `quantityMatched`, and
      its surplus becomes a new open order stored in price order. */
  function MarkedList(s: seq<Order>, markAs: Status, ids: seq<string>, quantityMatched: int, freshId: string)
    : (r: seq<Order>)
  {
    var k := SplitPoint(s, ids, quantityMatched);
    var v := StatusMarked(s, markAs, ids[..k]);
    if k == |ids| then v
    else
      var p := FindIndex(s, ids[k]).value;
      Insert(v[p := s[p].(status := markAs, quantity := quantityMatched)], Remainder(s[p], quantityMatched, freshId))
  }

  /** Marking changes statuses and quantities, never ids: with a fresh id
      for the remainder, the marked list keeps its ids unique and names no
      id but the old ones and the fresh one. */
  lemma MarkedListIds(s: seq<Order>, markAs: Status, ids: seq<string>, quantityMatched: int, freshId: string)
    requires UniqueIds(s) && !HasId(s, freshId)
    ensures UniqueIds(MarkedList(s, markAs, ids, quantityMatched, freshId))
    ensures forall x :: HasId(MarkedList(s, markAs, ids, quantityMatched, freshId), x) ==> HasId(s, x) || x == freshId
  {
    var k := SplitPoint(s, ids, quantityMatched);
    var v := StatusMarked(s, markAs, ids[..k]);
    assert forall i :: 0 <= i < |s| ==> v[i].id == s[i].id;
    if k == |ids| {
      SameIdsAt(v, s);
    } else {
      assert SplitsAt(s, ids[k], quantityMatched);
      var p := FindIndex(s, ids[k]).value;
      var w := v[p := s[p].(status := markAs, quantity := quantityMatched)];
      var rem := Remainder(s[p], quantityMatched, freshId);
      assert forall i :: 0 <= i < |s| ==> w[i].id == s[i].id;
      SameIdsAt(w, s);
      InsertKeepsUnique(w, rem);
      forall x
        ensures HasId(Insert(w, rem), x) ==> HasId(s, x) || x == freshId
      {
        InsertIds(w, rem, x);
      }
    }
  }

  /** With a non-negative match, marking leaves no negative quantity: a
      split order keeps the match and its remainder the positive surplus. */
  lemma MarkedListNonNegative(s: seq<Order>, markAs: Status, ids: seq<string>, quantityMatched: int, freshId: string)
    requires NonNegative(s) && quantityMatched >= 0
    ensures NonNegative(MarkedList(s, markAs, ids, quantityMatched, freshId))
  {
    var k := SplitPoint(s, ids, quantityMatched);
    var v := StatusMarked(s, markAs, ids[..k]);
    assert forall i :: 0 <= i < |s| ==> v[i].quantity == s[i].quantity;
    if k < |ids| {
      assert SplitsAt(s, ids[k], quantityMatched);
      var p := FindIndex(s, ids[k]).value;
      var w := v[p := s[p].(status := markAs, quantity := quantityMatched)];
      assert NonNegative(w);
      InsertNonNegative(w, Remainder(s[p], quantityMatched, freshId));
    }
  }

  /** `markOrdersLocally` with a non-negative match keeps every quantity
      non-negative. */
  lemma MarkOrdersLocallyKeepsNonNegative(book: Book, markAs: Status, ticker: string, m: MatchResult, freshId: string)
    requires ticker in book && TickerConsistent(book, ticker)
    requires NonNegativeBook(book) && m.quantityMatched >= 0
    ensures MarkOrdersLocally(book, markAs, ticker, m, freshId).Ok?
    ensures NonNegativeBook(MarkOrdersLocally(book, markAs, ticker, m, freshId).value)
  {
    MarkOrdersLocallyMeetsSpec(book, markAs, ticker, m, freshId);
    MarkedListNonNegative(book[ticker], markAs, m.matchedOrdersIds, m.quantityMatched, freshId);
  }

  /** `markOrdersLocally` with a fresh id for the remainder keeps every
      list's ids unique; the ticker's list gains at most the fresh id. */
  lemma MarkOrdersLocallyKeepsUnique(book: Book, markAs: Status, ticker: string, m: MatchResult, freshId: string)
    requires ticker in book && TickerConsistent(book, ticker)
    requires UniqueBook(book) && !HasId(book[ticker], freshId)
    ensures MarkOrdersLocally(book, markAs, ticker, m, freshId).Ok?
    ensures UniqueBook(MarkOrdersLocally(book, markAs, ticker, m, freshId).value)
    ensures forall x :: HasId(MarkOrdersLocally(book, markAs, ticker, m, freshId).value[ticker], x)
                        ==> HasId(book[ticker], x) || x == freshId
  {
    MarkOrdersLocallyMeetsSpec(book, markAs, ticker, m, freshId);
    MarkedListIds(book[ticker], markAs, m.matchedOrdersIds, m.quantityMatched, freshId);
  }

  lemma StatusMarkedNext(s: seq<Order>, markAs: Status, ids: seq<string>, j: nat)
    requires j < |ids|
    ensures FindIndex(s, ids[j]).None? ==> StatusMarked(s, markAs, ids[..j + 1]) == StatusMarked(s, markAs, ids[..j])
    ensures FindIndex(s, ids[j]).Some? ==>
      var p := FindIndex(s, ids[j]).value;
      var c := StatusMarked(s, markAs, ids[..j]);
      StatusMarked(s, markAs, ids[..j + 1]) == c[p := c[p].(status := markAs)]
  {
    assert ids[..j + 1] == ids[..j] + [ids[j]];
    var c := StatusMarked(s, markAs, ids[..j]);
    var c' := StatusMarked(s, markAs, ids[..j + 1]);
    match FindIndex(s, ids[j])
    case None =>
      forall i | 0 <= i < |s|
        ensures c'[i] == c[i]
      {
        assert s[i].id != ids[j];
      }
    case Some(p) =>
      forall i | 0 <= i < |s|
        ensures c'[i] == c[p := c[p].(status := markAs)][i]
      {
        if i != p && s[i].id == ids[j] {
          assert FindIndex(s, s[i].id) == Some(p);
        }
      }
  }

  /** One turn of the loop on an order larger than the match. */
  lemma MarkStepSplit(b: Book, markAs: Status, ticker: string, ids: seq<string>, quantityMatched: int,
                      freshId: string, p: nat)
    requires ticker in b && |ids| > 0
    requires FindIndex(b[ticker], ids[0]) == Some(p)
    requires b[ticker][p].ticker == ticker
    requires b[ticker][p].quantity > quantityMatched
    ensures var c := b[ticker];
      MarkIds(b, markAs, ticker, ids, quantityMatched, freshId)
      == Ok(b[ticker := Insert(c[p := c[p].(status := markAs, quantity := quantityMatched)],
                               Remainder(c[p], quantityMatched, freshId))])
  {
    var c := b[ticker];
    var o := c[p];
    var o' := o.(status := markAs, quantity := quantityMatched);
    UpdateFound(b, o, SplitPatch(markAs, quantityMatched), p);
    assert Merge(o, SplitPatch(markAs, quantityMatched)) == o';
    MarkIdsSplitUnfold(b, markAs, ticker, ids, quantityMatched, freshId, p, b[ticker := c[p := o']]);
    StoreAfterReplace(b, ticker, p, o', Remainder(o, quantityMatched, freshId));
  }

  /** The split branch of the loop, with the updated book named. */
  lemma MarkIdsSplitUnfold(b: Book, markAs: Status, ticker: string, ids: seq<string>, quantityMatched: int,
                           freshId: string, p: nat, b1: Book)
    requires ticker in b && |ids| > 0
    requires FindIndex(b[ticker], ids[0]) == Some(p)
    requires b[ticker][p].quantity > quantityMatched
    requires Update(b, b[ticker][p], SplitPatch(markAs, quantityMatched)) == Ok(b1)
    ensures MarkIds(b, markAs, ticker, ids, quantityMatched, freshId)
         == Store(b1, Remainder(b[ticker][p], quantityMatched, freshId))
  {
  }

  /** Storing into a book whose list had one entry replaced. */
  lemma StoreAfterReplace(b: Book, ticker: string, p: nat, o': Order, rem: Order)
    requires ticker in b && p < |b[ticker]| && rem.ticker == ticker
    ensures Store(b[ticker := b[ticker][p := o']], rem) == Ok(b[ticker := Insert(b[ticker][p := o'], rem)])
  {
    var replaced := b[ticker][p := o'];
    StoreFound(b[ticker := replaced], rem);
    ReplaceTwice(b, ticker, replaced, Insert(replaced, rem));
  }

  /** One turn of the loop on an order the match consumes whole. */
  lemma MarkStepWhole(b: Book, markAs: Status, ticker: string, ids: seq<string>, quantityMatched: int,
                      freshId: string, p: nat)
    requires ticker in b && |ids| > 0
    requires FindIndex(b[ticker], ids[0]) == Some(p)
    requires b[ticker][p].ticker == ticker
    requires b[ticker][p].quantity <= quantityMatched
    ensures var c := b[ticker];
      MarkIds(b, markAs, ticker, ids, quantityMatched, freshId)
      == MarkIds(b[ticker := c[p := c[p].(status := markAs)]], markAs, ticker, ids[1..], quantityMatched, freshId)
  {
    var c := b[ticker];
    var o := c[p];
    UpdateFound(b, o, MarkPatch(markAs), p);
    assert Merge(o, MarkPatch(markAs)) == o.(status := markAs);
  }

  /** The book after the loop has marked the orders `ids[..j]` name. */
  function MarkedBook(book: Book, markAs: Status, ticker: string, ids: seq<string>, j: nat): (b: Book)
    requires ticker in book && j <= |ids|
  {
    book[ticker := StatusMarked(book[ticker], markAs, ids[..j])]
  }

  /** Marking the next id that names an order relabels that order only. */
  lemma MarkedBookNext(book: Book, markAs: Status, ticker: string, ids: seq<string>, j: nat, p: nat)
    requires ticker in book && j < |ids|
    requires FindIndex(book[ticker], ids[j]) == Some(p)
    ensures var b := MarkedBook(book, markAs, ticker, ids, j);
      p < |b[ticker]| &&
      MarkedBook(book, markAs, ticker, ids, j + 1) == b[ticker := b[ticker][p := b[ticker][p].(status := markAs)]]
  {
    StatusMarkedNext(book[ticker], markAs, ids, j);
  }

  /** Marking the next id that names no order changes nothing. */
  lemma MarkedBookSkip(book: Book, markAs: Status, ticker: string, ids: seq<string>, j: nat)
    requires ticker in book && j < |ids|
    requires FindIndex(book[ticker], ids[j]) == None
    ensures MarkedBook(book, markAs, ticker, ids, j + 1) == MarkedBook(book, markAs, ticker, ids, j)
  {
    StatusMarkedNext(book[ticker], markAs, ids, j);
  }

  /** A turn before the split point marks one more id, or skips it. */
  lemma MarkIdsFromStep(book: Book, markAs: Status, ticker: string, ids: seq<string>, quantityMatched: int,
                        freshId: string, j: nat)
    requires ticker in book && TickerConsistent(book, ticker)
    requires j < SplitPoint(book[ticker], ids, quantityMatched)
    ensures MarkIds(MarkedBook(book, markAs, ticker, ids, j), markAs, ticker, ids[j..], quantityMatched, freshId)
         == MarkIds(MarkedBook(book, markAs, ticker, ids, j + 1), markAs, ticker, ids[j + 1..], quantityMatched, freshId)
  {
    var s := book[ticker];
    var c := StatusMarked(s, markAs, ids[..j]);
    var b := MarkedBook(book, markAs, ticker, ids, j);
    var rest := ids[j..];
    assert rest[0] == ids[j] && rest[1..] == ids[j + 1..];
    FindIndexSameIds(c, s, ids[j]);
    assert !SplitsAt(s, ids[j], quantityMatched);
    match FindIndex(s, ids[j])
    case None =>
      MarkedBookSkip(book, markAs, ticker, ids, j);
    case Some(p) =>
      MarkedBookNext(book, markAs, ticker, ids, j, p);
      assert c[p] == s[p] || c[p] == s[p].(status := markAs);
      MarkStepWhole(b, markAs, ticker, rest, quantityMatched, freshId, p);
  }

  /** At the split point the marked book, with the split applied, is the
      book `MarkedList` describes. */
  lemma MarkedBookSplit(book: Book, markAs: Status, ticker: string, ids: seq<string>, quantityMatched: int,
                        freshId: string, j: nat, p: nat)
    requires ticker in book
    requires j == SplitPoint(book[ticker], ids, quantityMatched) && j < |ids|
    requires FindIndex(book[ticker], ids[j]) == Some(p)
    ensures var b := MarkedBook(book, markAs, ticker, ids, j);
      var c := b[ticker];
      p < |c| &&
      b[ticker := Insert(c[p := c[p].(status := markAs, quantity := quantityMatched)],
                         Remainder(c[p], quantityMatched, freshId))]
      == book[ticker := MarkedList(book[ticker], markAs, ids, quantityMatched, freshId)]
  {
    var s := book[ticker];
    var c := StatusMarked(s, markAs, ids[..j]);
    assert MarkedList(s, markAs, ids, quantityMatched, freshId)
        == Insert(c[p := s[p].(status := markAs, quantity := quantityMatched)], Remainder(s[p], quantityMatched, freshId));
    SplitOfRelabelled(c, s, p, markAs, quantityMatched, freshId);
    ReplaceTwice(book, ticker, c, MarkedList(s, markAs, ids, quantityMatched, freshId));
  }

  /** Splitting an order whose status alone was changed gives the same
      list as splitting the original. */
  lemma SplitOfRelabelled(c: seq<Order>, s: seq<Order>, p: nat, markAs: Status, quantityMatched: int, freshId: string)
    requires p < |c| == |s|
    requires c[p] == s[p] || c[p] == s[p].(status := markAs)
    ensures Insert(c[p := c[p].(status := markAs, quantity := quantityMatched)], Remainder(c[p], quantityMatched, freshId))
         == Insert(c[p := s[p].(status := markAs, quantity := quantityMatched)], Remainder(s[p], quantityMatched, freshId))
  {
    assert c[p].(status := markAs, quantity := quantityMatched) == s[p].(status := markAs, quantity := quantityMatched);
    assert Remainder(c[p], quantityMatched, freshId) == Remainder(s[p], quantityMatched, freshId);
  }

  /** The turn at the split point ends the loop with `MarkedList`. */
  lemma MarkIdsFromSplit(book: Book, markAs: Status, ticker: string, ids: seq<string>, quantityMatched: int,
                         freshId: string, j: nat)
    requires ticker in book && TickerConsistent(book, ticker)
    requires j == SplitPoint(book[ticker], ids, quantityMatched) && j < |ids|
    ensures MarkIds(MarkedBook(book, markAs, ticker, ids, j), markAs, ticker, ids[j..], quantityMatched, freshId)
         == Ok(book[ticker := MarkedList(book[ticker], markAs, ids, quantityMatched, freshId)])
  {
    var s := book[ticker];
    var c := StatusMarked(s, markAs, ids[..j]);
    var b := MarkedBook(book, markAs, ticker, ids, j);
    var rest := ids[j..];
    assert rest[0] == ids[j];
    FindIndexSameIds(c, s, ids[j]);
    var p := FindIndex(s, ids[j]).value;
    MarkedBookSplit(book, markAs, ticker, ids, quantityMatched, freshId, j, p);
    MarkStepSplit(b, markAs, ticker, rest, quantityMatched, freshId, p);
  }

  lemma {:induction false} MarkIdsFrom(book: Book, markAs: Status, ticker: string, ids: seq<string>,
                                       quantityMatched: int, freshId: string, j: nat)
    requires ticker in book && TickerConsistent(book, ticker)
    requires j <= SplitPoint(book[ticker], ids, quantityMatched)
    ensures MarkIds(MarkedBook(book, markAs, ticker, ids, j), markAs, ticker, ids[j..], quantityMatched, freshId)
         == Ok(book[ticker := MarkedList(book[ticker], markAs, ids, quantityMatched, freshId)])
    decreases |ids| - j
  {
    var k := SplitPoint(book[ticker], ids, quantityMatched);
    if j == |ids| {
      assert ids[..j] == ids;
      assert ids[j..] == [];
    } else if j == k {
      MarkIdsFromSplit(book, markAs, ticker, ids, quantityMatched, freshId, j);
    } else {
      MarkIdsFromStep(book, markAs, ticker, ids, quantityMatched, freshId, j);
      MarkIdsFrom(book, markAs, ticker, ids, quantityMatched, freshId, j + 1);
    }
  }

  /** The loop of `markOrdersLocally` computes `MarkedList` on the ticker's
      list and leaves every other ticker alone. */
  lemma MarkOrdersLocallyMeetsSpec(book: Book, markAs: Status, ticker: string, m: MatchResult, freshId: string)
    requires ticker in book && TickerConsistent(book, ticker)
    ensures MarkOrdersLocally(book, markAs, ticker, m, freshId)
         == Ok(book[ticker := MarkedList(book[ticker], markAs, m.matchedOrdersIds, m.quantityMatched, freshId)])
  {
    var s := book[ticker];
    var ids := m.matchedOrdersIds;
    MarkIdsFrom(book, markAs, ticker, ids, m.quantityMatched, freshId, 0);
    assert ids[..0] == [];
    assert MarkedBook(book, markAs, ticker, ids, 0) == book[ticker := StatusMarked(s, markAs, [])];
    assert ids[0..] == ids;
    assert StatusMarked(s, markAs, []) == s;
    assert book[ticker := s] == book;
  }

  /** Marking only relabels orders and splits one in two, so the ticker's
      total quantity is unchanged. */
  lemma MarkedListQuantity(s: seq<Order>, markAs: Status, ids: seq<string>, quantityMatched: int, freshId: string)
    ensures SumQty(MarkedList(s, markAs, ids, quantityMatched, freshId)) == SumQty(s)
  {
    var k := SplitPoint(s, ids, quantityMatched);
    var v := StatusMarked(s, markAs, ids[..k]);
    SumQtySameQuantities(v, s);
    if k < |ids| {
      var p := FindIndex(s, ids[k]).value;
      var x := s[p].(status := markAs, quantity := quantityMatched);
      SumQtyUpdate(v, p, x);
      InsertQuantity(v[p := x], Remainder(s[p], quantityMatched, freshId));
    }
  }

  /** Prices never change and the remainder is inserted in price order. */
  lemma MarkedListSorted(s: seq<Order>, markAs: Status, ids: seq<string>, quantityMatched: int, freshId: string)
    requires Sorted(s)
    ensures Sorted(MarkedList(s, markAs, ids, quantityMatched, freshId))
  {
    var k := SplitPoint(s, ids, quantityMatched);
    var v := StatusMarked(s, markAs, ids[..k]);
    assert Sorted(v) by {
      assert forall i :: 0 <= i < |v| ==> v[i].value == s[i].value;
    }
    if k < |ids| {
      var p := FindIndex(s, ids[k]).value;
      var x := s[p].(status := markAs, quantity := quantityMatched);
      SortedSamePrice(v, p, x);
      InsertSorted(v[p := x], Remainder(s[p], quantityMatched, freshId));
    }
  }

  lemma MarkedListTickers(s: seq<Order>, t: string, markAs: Status, ids: seq<string>, quantityMatched: int,
                          freshId: string)
    requires forall i :: 0 <= i < |s| ==> s[i].ticker == t
    ensures var r := MarkedList(s, markAs, ids, quantityMatched, freshId);
      forall i :: 0 <= i < |r| ==> r[i].ticker == t
  {
    var k := SplitPoint(s, ids, quantityMatched);
    var v := StatusMarked(s, markAs, ids[..k]);
    assert forall i :: 0 <= i < |v| ==> v[i].ticker == t;
    if k < |ids| {
      var p := FindIndex(s, ids[k]).value;
      var w := v[p := s[p].(status := markAs, quantity := quantityMatched)];
      var rem := Remainder(s[p], quantityMatched, freshId);
      assert forall i :: 0 <= i < |w| ==> w[i].ticker == t;
      InsertTickers(w, rem, t);
    }
  }

  /** `markOrdersLocally` keeps a valid book valid, conserves the
      ticker's total quantity and touches no other ticker. */
  lemma MarkOrdersLocallyValid(book: Book, markAs: Status, ticker: string, m: MatchResult, freshId: string)
    requires Valid(book)
    requires ticker in book
    ensures MarkOrdersLocally(book, markAs, ticker, m, freshId).Ok?
    ensures Valid(MarkOrdersLocally(book, markAs, ticker, m, freshId).value)
    ensures SumQty(MarkOrdersLocally(book, markAs, ticker, m, freshId).value[ticker]) == SumQty(book[ticker])
    ensures forall t :: t in book && t != ticker ==> MarkOrdersLocally(book, markAs, ticker, m, freshId).value[t] == book[t]
  {
    var s := book[ticker];
    var ids := m.matchedOrdersIds;
    MarkOrdersLocallyMeetsSpec(book, markAs, ticker, m, freshId);
    MarkedListQuantity(s, markAs, ids, m.quantityMatched, freshId);
    MarkedListSorted(s, markAs, ids, m.quantityMatched, freshId);
    MarkedListTickers(s, ticker, markAs, ids, m.quantityMatched, freshId);
  }

  /** When the first id names an order holding more than the match, that
      order alone is settled: it gets `markAs` and the matched quantity,
      a fresh open remainder holds the rest, and later ids are ignored. */
  lemma MarkSplitsFirst(s: seq<Order>, markAs: Status, ids: seq<string>, quantityMatched: int, freshId: string)
    requires |ids| > 0 && SplitsAt(s, ids[0], quantityMatched)
    ensures var p := FindIndex(s, ids[0]).value;
      var r := MarkedList(s, markAs, ids, quantityMatched, freshId);
      && r == Insert(s[p := s[p].(status := markAs, quantity := quantityMatched)], Remainder(s[p], quantityMatched, freshId))
      && |r| == |s| + 1
      && s[p].(status := markAs, quantity := quantityMatched).quantity
         + Remainder(s[p], quantityMatched, freshId).quantity == s[p].quantity
  {
    assert ids[..0] == [];
    assert StatusMarked(s, markAs, []) == s;
  }

  /** Without a split, the list keeps its length and each order either is
      unchanged or is an order some id names with only its status set. */
  lemma MarkWithoutSplit(s: seq<Order>, markAs: Status, ids: seq<string>, quantityMatched: int, freshId: string)
    requires SplitPoint(s, ids, quantityMatched) == |ids|
    ensures var r := MarkedList(s, markAs, ids, quantityMatched, freshId);
      && |r| == |s|
      && forall i :: 0 <= i < |s| ==> r[i] == s[i] || (s[i].id in ids && r[i] == s[i].(status := markAs))
  {
    assert ids[..|ids|] == ids;
  }

  /** With unique ids, relabelling keeps ids and marks every order `done` names. */
  lemma StatusMarkedMarks(s: seq<Order>, markAs: Status, done: seq<string>)
    requires UniqueIds(s)
    ensures var v := StatusMarked(s, markAs, done);
      |v| == |s| && forall i :: 0 <= i < |s| ==> v[i].id == s[i].id && (s[i].id in done ==> v[i].status == markAs)
  {
    forall i | 0 <= i < |s|
      ensures s[i].id in done ==> StatusMarked(s, markAs, done)[i].status == markAs
    {
      FindIndexUnique(s, i);
    }
  }

  /** Every order of `r` that an id of `ids` names has status `markAs`. */
  predicate MarksNamed(r: seq<Order>, ids: seq<string>, markAs: Status)
  {
    forall i :: 0 <= i < |r| && r[i].id in ids ==> r[i].status == markAs
  }

  /** Inserting an order whose id is not listed keeps every listed order marked. */
  lemma InsertKeepsMarked(w: seq<Order>, rem: Order, ids: seq<string>, markAs: Status)
    requires MarksNamed(w, ids, markAs)
    requires rem.id !in ids
    ensures MarksNamed(Insert(w, rem), ids, markAs)
  {
    var r := Insert(w, rem);
    forall i | 0 <= i < |r| && r[i].id in ids
      ensures r[i].status == markAs
    {
      InsertMembers(w, rem, i);
    }
  }

  /** The orders the split turn leaves marked: all those named, the split
      one included. */
  lemma SplitTurnMarks(s: seq<Order>, markAs: Status, ids: seq<string>, quantityMatched: int, p: nat)
    requires UniqueIds(s)
    requires |ids| > 0 && FindIndex(s, ids[|ids| - 1]) == Some(p)
    ensures MarksNamed(StatusMarked(s, markAs, ids[..|ids| - 1])[p := s[p].(status := markAs, quantity := quantityMatched)],
                       ids, markAs)
  {
    var k := |ids| - 1;
    var v := StatusMarked(s, markAs, ids[..k]);
    StatusMarkedMarks(s, markAs, ids[..k]);
    var w := v[p := s[p].(status := markAs, quantity := quantityMatched)];
    forall i | 0 <= i < |w| && w[i].id in ids
      ensures w[i].status == markAs
    {
      if i != p {
        FindIndexUnique(s, i);
        EarlierIdNamed(ids, s[i].id);
      }
    }
  }

  /** An id of the list other than its last is in the list's proper prefix. */
  lemma EarlierIdNamed(ids: seq<string>, id: string)
    requires |ids| > 0 && id in ids && id != ids[|ids| - 1]
    ensures id in ids[..|ids| - 1]
  {
    var j :| 0 <= j < |ids| && ids[j] == id;
    assert ids[..|ids| - 1][j] == id;
  }

  /** With unique ids and no split before the last id, every order a
      listed id names ends up with status `markAs`. */
  lemma MarkedListMarksAll(s: seq<Order>, markAs: Status, ids: seq<string>, quantityMatched: int, freshId: string)
    requires UniqueIds(s)
    requires SplitPoint(s, ids, quantityMatched) + 1 >= |ids|
    requires freshId !in ids
    ensures MarksNamed(MarkedList(s, markAs, ids, quantityMatched, freshId), ids, markAs)
  {
    var k := SplitPoint(s, ids, quantityMatched);
    if k == |ids| {
      MarkedListWhole(s, markAs, ids, quantityMatched, freshId);
      StatusMarkedMarks(s, markAs, ids);
    } else {
      var p := FindIndex(s, ids[k]).value;
      var w := StatusMarked(s, markAs, ids[..k])[p := s[p].(status := markAs, quantity := quantityMatched)];
      var rem := Remainder(s[p], quantityMatched, freshId);
      MarkedListSplit(s, markAs, ids, quantityMatched, freshId, k, p);
      SplitTurnMarks(s, markAs, ids, quantityMatched, p);
      InsertKeepsMarked(w, rem, ids, markAs);
    }
  }

  /** At a split, `MarkedList` is the marked prefix with the split applied. */
  lemma MarkedListSplit(s: seq<Order>, markAs: Status, ids: seq<string>, quantityMatched: int, freshId: string,
                        k: nat, p: nat)
    requires k == SplitPoint(s, ids, quantityMatched) && k < |ids|
    requires FindIndex(s, ids[k]) == Some(p)
    ensures MarkedList(s, markAs, ids, quantityMatched, freshId)
         == Insert(StatusMarked(s, markAs, ids[..k])[p := s[p].(status := markAs, quantity := quantityMatched)],
                   Remainder(s[p], quantityMatched, freshId))
  {
  }

  /** Without a split, `MarkedList` marks every listed id. */
  lemma MarkedListWhole(s: seq<Order>, markAs: Status, ids: seq<string>, quantityMatched: int, freshId: string)
    requires SplitPoint(s, ids, quantityMatched) == |ids|
    ensures MarkedList(s, markAs, ids, quantityMatched, freshId) == StatusMarked(s, markAs, ids)
  {
    assert ids[..|ids|] == ids;
  }

  /** The sum of the quantities of the orders the ids name. */
  function FoundQty(s: seq<Order>, ids: seq<string>): (total: int)
  {
    if |ids| == 0 then 0
    else
      (match FindIndex(s, ids[0]) case Some(p) => s[p].quantity case None => 0)
      + FoundQty(s, ids[1..])
  }

  /** The order `id` names, if any, is open with a non-negative quantity. */
  predicate FoundOpen(s: seq<Order>, id: string)
  {
    match FindIndex(s, id)
    case Some(p) => s[p].status == Open && s[p].quantity >= 0
    case None => true
  }

  /** The settlement as evidently intended: the same loop, but each order
      is compared with a running need that starts at the matched quantity
      and falls by every order marked whole; the order holding more than
      what is still needed is split at that need. */
  function SettleRunning(s: seq<Order>, markAs: Status, ids: seq<string>, need: int, freshId: string)
    : (r: seq<Order>)
    decreases |ids|
  {
    if |ids| == 0 then s
    else match FindIndex(s, ids[0])
      case None => SettleRunning(s, markAs, ids[1..], need, freshId)
      case Some(p) =>
        if s[p].quantity > need then
          Insert(s[p := s[p].(status := markAs, quantity := need)], Remainder(s[p], need, freshId))
        else SettleRunning(s[p := s[p].(status := markAs)], markAs, ids[1..], need - s[p].quantity, freshId)
  }

  /** The corrected `markOrdersLocally`. */
  function MarkOrdersRunning(book: Book, markAs: Status, ticker: string, m: MatchResult, freshId: string)
    : (r: Result<Book, BookError>)
    ensures r.Ok? <==> ticker in book || |m.matchedOrdersIds| == 0
    ensures r.Ok? ==> r.value.Keys == book.Keys
    ensures r.Ok? ==> forall t :: t in book && t != ticker ==> r.value[t] == book[t]
  {
    if |m.matchedOrdersIds| == 0 then Ok(book)
    else if ticker !in book then Err(TickerNotFound(ticker))
    else Ok(book[ticker := SettleRunning(book[ticker], markAs, m.matchedOrdersIds, m.quantityMatched, freshId)])
  }

  /** On a single id the as-written loop and the corrected one agree:
      with one order to settle, the total and the running need coincide. */
  lemma SingleIdAgrees(s: seq<Order>, markAs: Status, id: string, quantityMatched: int, freshId: string)
    ensures MarkedList(s, markAs, [id], quantityMatched, freshId) == SettleRunning(s, markAs, [id], quantityMatched, freshId)
  {
    var ids := [id];
    assert ids[..0] == [] && ids[..1] == ids && ids[1..] == [];
    StatusMarkedNext(s, markAs, ids, 0);
    StatusMarkedNothing(s, markAs);
    match FindIndex(s, id)
    case None =>
      assert SplitPoint(s, ids, quantityMatched) == 1;
      assert SettleRunning(s, markAs, ids, quantityMatched, freshId) == s;
    case Some(p) =>
      if s[p].quantity > quantityMatched {
        assert SplitPoint(s, ids, quantityMatched) == 0;
      } else {
        assert SplitPoint(s, ids, quantityMatched) == 1;
        assert SettleRunning(s, markAs, ids, quantityMatched, freshId) == s[p := s[p].(status := markAs)];
      }
  }

  /** Marking no id changes nothing. */
  lemma StatusMarkedNothing(s: seq<Order>, markAs: Status)
    ensures StatusMarked(s, markAs, []) == s
  {
  }

  /** The two appliers give the same book on a match that names one order. */
  lemma SingleIdAppliersAgree(book: Book, markAs: Status, ticker: string, m: MatchResult, freshId: string)
    requires ticker in book && TickerConsistent(book, ticker)
    requires |m.matchedOrdersIds| == 1
    ensures MarkOrdersLocally(book, markAs, ticker, m, freshId) == MarkOrdersRunning(book, markAs, ticker, m, freshId)
  {
    MarkOrdersLocallyMeetsSpec(book, markAs, ticker, m, freshId);
    assert m.matchedOrdersIds == [m.matchedOrdersIds[0]];
    SingleIdAgrees(book[ticker], markAs, m.matchedOrdersIds[0], m.quantityMatched, freshId);
  }

  /** No id is listed twice. */
  predicate Distinct(ids: seq<string>)
  {
    forall a, b :: 0 <= a < b < |ids| ==> ids[a] != ids[b]
  }

  /** Every listed id names an open order of non-negative quantity, or nothing. */
  predicate AllFoundOpen(s: seq<Order>, ids: seq<string>)
  {
    forall j :: 0 <= j < |ids| ==> FoundOpen(s, ids[j])
  }

  lemma {:induction false} FoundQtyNonNegative(s: seq<Order>, ids: seq<string>)
    requires AllFoundOpen(s, ids)
    ensures FoundQty(s, ids) >= 0
  {
    if |ids| > 0 {
      FoundQtyNonNegative(s, ids[1..]);
    }
  }

  lemma {:induction false} FoundQtySameShape(a: seq<Order>, b: seq<Order>, ids: seq<string>)
    requires |a| == |b|
    requires forall i :: 0 <= i < |a| ==> a[i].id == b[i].id && a[i].quantity == b[i].quantity
    ensures FoundQty(a, ids) == FoundQty(b, ids)
  {
    if |ids| > 0 {
      FindIndexSameIds(a, b, ids[0]);
      FoundQtySameShape(a, b, ids[1..]);
    }
  }

  /** The turn that splits an order marks exactly what is still needed. */
  lemma SettleSplitTurn(s: seq<Order>, markAs: Status, p: nat, need: int, freshId: string)
    requires p < |s| && s[p].status == Open && markAs != Open
    requires s[p].quantity > need
    ensures var r := Insert(s[p := s[p].(status := markAs, quantity := need)], Remainder(s[p], need, freshId));
      && QtyWithStatus(markAs, r) == QtyWithStatus(markAs, s) + need
      && SumQty(r) == SumQty(s)
  {
    var x := s[p].(status := markAs, quantity := need);
    var rem := Remainder(s[p], need, freshId);
    QtyWithStatusUpdate(markAs, s, p, x);
    InsertQtyWithStatus(markAs, s[p := x], rem);
    SumQtyUpdate(s, p, x);
    InsertQuantity(s[p := x], rem);
  }

  /** The turn that marks an order whole moves its quantity to `markAs`
      and leaves what the later ids find unchanged. */
  lemma SettleWholeTurn(s: seq<Order>, markAs: Status, ids: seq<string>, p: nat)
    requires |ids| > 0 && FindIndex(s, ids[0]) == Some(p)
    requires s[p].status == Open && markAs != Open
    requires Distinct(ids)
    requires AllFoundOpen(s, ids)
    ensures var s' := s[p := s[p].(status := markAs)];
      && QtyWithStatus(markAs, s') == QtyWithStatus(markAs, s) + s[p].quantity
      && SumQty(s') == SumQty(s)
      && FoundQty(s', ids[1..]) == FoundQty(s, ids[1..])
      && AllFoundOpen(s', ids[1..])
  {
    var x := s[p].(status := markAs);
    var s' := s[p := x];
    QtyWithStatusUpdate(markAs, s, p, x);
    SumQtyUpdate(s, p, x);
    FoundQtySameShape(s', s, ids[1..]);
    forall j | 0 <= j < |ids[1..]|
      ensures FoundOpen(s', ids[1..][j])
    {
      FindIndexSameIds(s', s, ids[1..][j]);
      assert ids[1..][j] == ids[j + 1];
      assert FoundOpen(s, ids[j + 1]);
    }
  }

  /** The corrected settlement gives status `markAs` to exactly the
      matched quantity (or all the named liquidity, when that is less),
      and conserves the list's total quantity. */
  lemma {:induction false} SettleRunningMarksExactly(s: seq<Order>, markAs: Status, ids: seq<string>, need: int,
                                                     freshId: string)
    requires need >= 0
    requires markAs != Open
    requires Distinct(ids)
    requires AllFoundOpen(s, ids)
    ensures QtyWithStatus(markAs, SettleRunning(s, markAs, ids, need, freshId))
         == QtyWithStatus(markAs, s) + Min(need, FoundQty(s, ids))
    ensures SumQty(SettleRunning(s, markAs, ids, need, freshId)) == SumQty(s)
    decreases |ids|
  {
    if |ids| > 0 {
      var rest := ids[1..];
      FoundOpenTail(s, ids);
      FoundQtyNonNegative(s, rest);
      match FindIndex(s, ids[0])
      case None =>
        assert FoundQty(s, ids) == FoundQty(s, rest);
        assert SettleRunning(s, markAs, ids, need, freshId) == SettleRunning(s, markAs, rest, need, freshId);
        SettleRunningMarksExactly(s, markAs, rest, need, freshId);
      case Some(p) =>
        assert FoundOpen(s, ids[0]);
        assert FoundQty(s, ids) == s[p].quantity + FoundQty(s, rest);
        if s[p].quantity > need {
          assert SettleRunning(s, markAs, ids, need, freshId)
              == Insert(s[p := s[p].(status := markAs, quantity := need)], Remainder(s[p], need, freshId));
          SettleSplitTurn(s, markAs, p, need, freshId);
        } else {
          var s' := s[p := s[p].(status := markAs)];
          assert SettleRunning(s, markAs, ids, need, freshId)
              == SettleRunning(s', markAs, rest, need - s[p].quantity, freshId);
          SettleWholeTurn(s, markAs, ids, p);
          SettleRunningMarksExactly(s', markAs, rest, need - s[p].quantity, freshId);
        }
    }
  }

  /** The conditions on the ids carry over to all but the first. */
  lemma FoundOpenTail(s: seq<Order>, ids: seq<string>)
    requires |ids| > 0
    requires Distinct(ids)
    requires AllFoundOpen(s, ids)
    ensures Distinct(ids[1..])
    ensures AllFoundOpen(s, ids[1..])
  {
    forall j | 0 <= j < |ids[1..]|
      ensures FoundOpen(s, ids[1..][j])
    {
      assert ids[1..][j] == ids[j + 1];
    }
    forall a, b | 0 <= a < b < |ids[1..]|
      ensures ids[1..][a] != ids[1..][b]
    {
      assert ids[1..][a] == ids[a + 1] && ids[1..][b] == ids[b + 1];
    }
  }

  /** The corrected settlement only relabels orders and splits one in
      two, so the list's total quantity is unchanged. */
  lemma {:induction false} SettleRunningQuantity(s: seq<Order>, markAs: Status, ids: seq<string>, need: int,
                                                 freshId: string)
    ensures SumQty(SettleRunning(s, markAs, ids, need, freshId)) == SumQty(s)
    decreases |ids|
  {
    if |ids| > 0 {
      match FindIndex(s, ids[0])
      case None =>
        SettleRunningQuantity(s, markAs, ids[1..], need, freshId);
      case Some(p) =>
        if s[p].quantity > need {
          var x := s[p].(status := markAs, quantity := need);
          SumQtyUpdate(s, p, x);
          InsertQuantity(s[p := x], Remainder(s[p], need, freshId));
        } else {
          SumQtyUpdate(s, p, s[p].(status := markAs));
          SettleRunningQuantity(s[p := s[p].(status := markAs)], markAs, ids[1..], need - s[p].quantity, freshId);
        }
    }
  }

  /** Prices never change and the remainder is inserted in price order. */
  lemma {:induction false} SettleRunningSorted(s: seq<Order>, markAs: Status, ids: seq<string>, need: int,
                                               freshId: string)
    requires Sorted(s)
    ensures Sorted(SettleRunning(s, markAs, ids, need, freshId))
    decreases |ids|
  {
    if |ids| > 0 {
      match FindIndex(s, ids[0])
      case None =>
        SettleRunningSorted(s, markAs, ids[1..], need, freshId);
      case Some(p) =>
        if s[p].quantity > need {
          var w := s[p := s[p].(status := markAs, quantity := need)];
          SortedSamePrice(s, p, s[p].(status := markAs, quantity := need));
          InsertSorted(w, Remainder(s[p], need, freshId));
        } else {
          var w := s[p := s[p].(status := markAs)];
          SortedSamePrice(s, p, s[p].(status := markAs));
          SettleRunningSorted(w, markAs, ids[1..], need - s[p].quantity, freshId);
        }
    }
  }

  /** Every order stays in, or joins, the list of its own ticker. */
  lemma {:induction false} SettleRunningTickers(s: seq<Order>, t: string, markAs: Status, ids: seq<string>,
                                                need: int, freshId: string)
    requires forall i :: 0 <= i < |s| ==> s[i].ticker == t
    ensures forall x :: x in SettleRunning(s, markAs, ids, need, freshId) ==> x.ticker == t
    decreases |ids|
  {
    if |ids| > 0 {
      match FindIndex(s, ids[0])
      case None =>
        SettleRunningTickers(s, t, markAs, ids[1..], need, freshId);
      case Some(p) =>
        if s[p].quantity > need {
          var w := s[p := s[p].(status := markAs, quantity := need)];
          assert forall i :: 0 <= i < |w| ==> w[i].ticker == t;
          InsertTickers(w, Remainder(s[p], need, freshId), t);
          var r := Insert(w, Remainder(s[p], need, freshId));
          assert forall x :: x in r ==> exists i :: 0 <= i < |r| && r[i] == x;
        } else {
          var w := s[p := s[p].(status := markAs)];
          assert forall i :: 0 <= i < |w| ==> w[i].ticker == t;
          SettleRunningTickers(w, t, markAs, ids[1..], need - s[p].quantity, freshId);
        }
    }
  }

  /** Every order of `r` was already in `s`, or is one a listed id names
      now carrying `markAs`, or is the fresh remainder. */
  predicate MembersFrom(r: seq<Order>, s: seq<Order>, markAs: Status, ids: seq<string>, freshId: string)
  {
    forall x :: x in r ==> x in s || (x.id in ids && x.status == markAs) || x.id == freshId
  }

  /** Settlement only relabels, splits and adds the fresh remainder. */
  lemma {:induction false} SettleRunningMembers(s: seq<Order>, markAs: Status, ids: seq<string>, need: int,
                                                freshId: string)
    ensures MembersFrom(SettleRunning(s, markAs, ids, need, freshId), s, markAs, ids, freshId)
    decreases |ids|
  {
    if |ids| > 0 {
      match FindIndex(s, ids[0])
      case None =>
        SettleRunningMembers(s, markAs, ids[1..], need, freshId);
        assert forall x :: x in ids[1..] ==> x in ids;
      case Some(p) =>
        if s[p].quantity > need {
          SplitTurnMembers(s, markAs, ids, need, freshId, p);
        } else {
          var w := s[p := s[p].(status := markAs)];
          SettleRunningMembers(w, markAs, ids[1..], need - s[p].quantity, freshId);
          WholeTurnMembers(s, markAs, ids, freshId, p, SettleRunning(w, markAs, ids[1..], need - s[p].quantity, freshId));
        }
    }
  }

  /** The split turn: the named order is relabelled and the remainder added. */
  lemma SplitTurnMembers(s: seq<Order>, markAs: Status, ids: seq<string>, need: int, freshId: string, p: nat)
    requires |ids| > 0 && p < |s| && s[p].id == ids[0]
    ensures MembersFrom(Insert(s[p := s[p].(status := markAs, quantity := need)], Remainder(s[p], need, freshId)),
                        s, markAs, ids, freshId)
  {
    var w := s[p := s[p].(status := markAs, quantity := need)];
    var rem := Remainder(s[p], need, freshId);
    var r := Insert(w, rem);
    forall x | x in r
      ensures x in s || (x.id in ids && x.status == markAs) || x.id == freshId
    {
      var i :| 0 <= i < |r| && r[i] == x;
      InsertMembers(w, rem, i);
      if x != rem {
        var k :| 0 <= k < |w| && w[k] == x;
        if k != p {
          assert x == s[k];
        }
      }
    }
  }

  /** A whole turn: the named order is relabelled, then the later ids run. */
  lemma WholeTurnMembers(s: seq<Order>, markAs: Status, ids: seq<string>, freshId: string, p: nat, r: seq<Order>)
    requires |ids| > 0 && p < |s| && s[p].id == ids[0]
    requires MembersFrom(r, s[p := s[p].(status := markAs)], markAs, ids[1..], freshId)
    ensures MembersFrom(r, s, markAs, ids, freshId)
  {
    var m := s[p].(status := markAs);
    var w := s[p := m];
    forall x | x in r
      ensures x in s || (x.id in ids && x.status == markAs) || x.id == freshId
    {
      if x in w && x != m {
        var k :| 0 <= k < |w| && w[k] == x;
        assert k != p;
        assert x == s[k];
      } else if x !in w && x.id != freshId {
        assert x.id in ids[1..];
      }
    }
  }

  /** Every proper prefix of the ids names no more than `need`. */
  predicate PrefixesWithin(s: seq<Order>, ids: seq<string>, need: int)
  {
    forall k :: 0 < k < |ids| ==> FoundQty(s, ids[..k]) <= need
  }

  /** When every proper prefix of the ids names no more than the need,
      only the last named order can split, so every order a listed id
      names ends up with status `markAs`. */
  lemma {:induction false} SettleRunningMarksAll(s: seq<Order>, markAs: Status, ids: seq<string>, need: int,
                                                 freshId: string)
    requires UniqueIds(s)
    requires Distinct(ids)
    requires freshId !in ids
    requires PrefixesWithin(s, ids, need)
    ensures forall x :: x in SettleRunning(s, markAs, ids, need, freshId) && x.id in ids ==> x.status == markAs
    decreases |ids|
  {
    if |ids| > 0 {
      var rest := ids[1..];
      assert forall j :: 0 <= j < |rest| ==> rest[j] == ids[j + 1];
      match FindIndex(s, ids[0])
      case None =>
        PrefixesWithinSkip(s, ids, need);
        SettleRunningMarksAll(s, markAs, rest, need, freshId);
        SettleRunningMembers(s, markAs, rest, need, freshId);
      case Some(p) =>
        if s[p].quantity > need {
          assert ids[..1] == [ids[0]] && ids[..1][1..] == [];
          assert FoundQty(s, ids[..1]) == s[p].quantity;
          SplitTurnMarksNamed(s, markAs, ids, need, freshId, p);
        } else {
          var w := s[p := s[p].(status := markAs)];
          PrefixesWithinWhole(s, w, markAs, ids, need, p);
          SettleRunningMarksAll(w, markAs, rest, need - s[p].quantity, freshId);
          SettleRunningMembers(w, markAs, rest, need - s[p].quantity, freshId);
          WholeTurnMarksNamed(s, w, markAs, ids, p, SettleRunning(w, markAs, rest, need - s[p].quantity, freshId), freshId);
        }
    }
  }

  /** The split turn on the only id marks the order it names. */
  lemma SplitTurnMarksNamed(s: seq<Order>, markAs: Status, ids: seq<string>, need: int, freshId: string, p: nat)
    requires UniqueIds(s)
    requires |ids| == 1 && FindIndex(s, ids[0]) == Some(p)
    requires freshId !in ids
    ensures var r := Insert(s[p := s[p].(status := markAs, quantity := need)], Remainder(s[p], need, freshId));
      forall x :: x in r && x.id in ids ==> x.status == markAs
  {
    var w := s[p := s[p].(status := markAs, quantity := need)];
    assert ids == [ids[0]];
    assert forall k :: 0 <= k < |w| && w[k].id in ids ==> w[k].status == markAs by {
      assert forall k :: 0 <= k < |w| ==> w[k].id == s[k].id;
    }
    InsertKeepsMarked(w, Remainder(s[p], need, freshId), ids, markAs);
  }

  /** After a whole turn, the order the first id names stays marked and
      the rest of the settlement marks what the later ids name. */
  lemma WholeTurnMarksNamed(s: seq<Order>, w: seq<Order>, markAs: Status, ids: seq<string>, p: nat,
                            r: seq<Order>, freshId: string)
    requires UniqueIds(s)
    requires |ids| > 0 && FindIndex(s, ids[0]) == Some(p)
    requires w == s[p := s[p].(status := markAs)]
    requires Distinct(ids)
    requires freshId !in ids
    requires forall x :: x in r && x.id in ids[1..] ==> x.status == markAs
    requires forall x :: x in r ==> x in w || (x.id in ids[1..] && x.status == markAs) || x.id == freshId
    ensures forall x :: x in r && x.id in ids ==> x.status == markAs
  {
    forall x | x in r && x.id in ids
      ensures x.status == markAs
    {
      if x.id !in ids[1..] {
        var k :| 0 <= k < |w| && w[k] == x;
        assert w[k].id == s[k].id;
      }
    }
  }

  /** A first id that names nothing adds nothing to any prefix. */
  lemma PrefixesWithinSkip(s: seq<Order>, ids: seq<string>, need: int)
    requires |ids| > 0 && FindIndex(s, ids[0]).None?
    requires PrefixesWithin(s, ids, need)
    ensures PrefixesWithin(s, ids[1..], need)
  {
    forall k | 0 < k < |ids[1..]|
      ensures FoundQty(s, ids[1..][..k]) <= need
    {
      assert ids[..k + 1][1..] == ids[1..][..k];
      assert ids[..k + 1][0] == ids[0];
      assert FoundQty(s, ids[..k + 1]) <= need;
    }
  }

  /** Marking the first named order whole lowers every later prefix's
      bound by its quantity. */
  lemma PrefixesWithinWhole(s: seq<Order>, w: seq<Order>, markAs: Status, ids: seq<string>, need: int, p: nat)
    requires |ids| > 0 && FindIndex(s, ids[0]) == Some(p)
    requires w == s[p := s[p].(status := markAs)]
    requires PrefixesWithin(s, ids, need)
    ensures UniqueIds(s) ==> UniqueIds(w)
    ensures PrefixesWithin(w, ids[1..], need - s[p].quantity)
  {
    forall k | 0 < k < |ids[1..]|
      ensures FoundQty(w, ids[1..][..k]) <= need - s[p].quantity
    {
      assert ids[..k + 1][1..] == ids[1..][..k];
      assert ids[..k + 1][0] == ids[0];
      assert FoundQty(s, ids[..k + 1]) <= need;
      FoundQtySameShape(w, s, ids[1..][..k]);
    }
  }

  /** The corrected `markOrdersLocally` keeps a valid book valid,
      conserves the ticker's total quantity and touches no other ticker. */
  lemma MarkOrdersRunningValid(book: Book, markAs: Status, ticker: string, m: MatchResult, freshId: string)
    requires Valid(book)
    requires ticker in book
    ensures MarkOrdersRunning(book, markAs, ticker, m, freshId).Ok?
    ensures Valid(MarkOrdersRunning(book, markAs, ticker, m, freshId).value)
    ensures SumQty(MarkOrdersRunning(book, markAs, ticker, m, freshId).value[ticker]) == SumQty(book[ticker])
    ensures forall t :: t in book && t != ticker ==> MarkOrdersRunning(book, markAs, ticker, m, freshId).value[t] == book[t]
  {
    var s := book[ticker];
    var ids := m.matchedOrdersIds;
    SettleRunningQuantity(s, markAs, ids, m.quantityMatched, freshId);
    SettleRunningSorted(s, markAs, ids, m.quantityMatched, freshId);
    SettleRunningTickers(s, ticker, markAs, ids, m.quantityMatched, freshId);
    var r := SettleRunning(s, markAs, ids, m.quantityMatched, freshId);
    assert forall i :: 0 <= i < |r| ==> r[i].ticker == ticker by {
      forall i | 0 <= i < |r|
        ensures r[i].ticker == ticker
      {
        assert r[i] in r;
      }
    }
  }

  /** The ids of orders drawn from a list with unique ids find exactly
      those orders, so they name their summed quantity. */
  lemma {:induction false} FoundQtyOfOrders(s: seq<Order>, m: seq<Order>)
    requires UniqueIds(s)
    requires forall x :: x in m ==> x in s
    ensures FoundQty(s, Ids(m)) == SumQty(m)
  {
    if |m| > 0 {
      assert m[0] in m;
      var i :| 0 <= i < |s| && s[i] == m[0];
      FindIndexUnique(s, i);
      assert Ids(m)[1..] == Ids(m[1..]);
      assert forall x :: x in m[1..] ==> x in m;
      FoundQtyOfOrders(s, m[1..]);
    }
  }

  /** Two resting sells of 2 and 3 against a buy of 4. */
  const SellA: Order := Order("s1", BtcUsd, Sell, 100, 2, "alice", Open, None)
  const SellB: Order := Order("s2", BtcUsd, Sell, 100, 3, "alice", Open, None)
  const BuyFour: Order := Order("b1", BtcUsd, Buy, 100, 4, "bob", Open, None)

  /** The search picks both sells and matches the full 4. */
  lemma OverSettleSearch()
    ensures SearchLocally(NewBook()[BtcUsd := [SellA, SellB]], BuyFour, "n1")
         == Ok(MatchResult(true, ["s1", "s2"], 4, "n1"))
  {
    var s := [SellA, SellB];
    assert ScanOrders(s[1..], BuyFour, 2) == Scan([SellB], 0);
    assert ScanOrders(s, BuyFour, 4) == Scan([SellA, SellB], 0);
    assert Ids([SellA, SellB]) == ["s1", "s2"];
  }

  /** Compared with the total 4, neither sell splits: both are closed whole. */
  lemma OverSettleAsWritten()
    ensures MarkedList([SellA, SellB], Close, ["s1", "s2"], 4, "f1")
         == [SellA.(status := Close), SellB.(status := Close)]
  {
    var s := [SellA, SellB];
    var ids := ["s1", "s2"];
    assert FindIndex(s, "s1") == Some(0);
    assert FindIndex(s, "s2") == Some(1);
    assert SplitPoint(s, ids, 4) == 2;
    assert ids[..2] == ids;
  }

  /** With a running need the second sell is split at the 2 still needed. */
  lemma OverSettleRunning()
    ensures SettleRunning([SellA, SellB], Close, ["s1", "s2"], 4, "f1")
         == Insert([SellA.(status := Close), SellB.(status := Close, quantity := 2)], Remainder(SellB, 2, "f1"))
  {
    var s := [SellA, SellB];
    var t := s[0 := SellA.(status := Close)];
    assert FindIndex(s, "s1") == Some(0);
    assert FindIndex(t, "s2") == Some(1);
    assert ["s1", "s2"][1..] == ["s2"];
    assert t[1 := SellB.(status := Close, quantity := 2)] == [SellA.(status := Close), SellB.(status := Close, quantity := 2)];
  }

  /** Two sells of 2 and 3 against a buy of 4: the search matches 4, but
      the as-written applier compares each sell with the total 4, closes
      both whole and settles 5 units. The running applier closes exactly
      4 and leaves one unit of the second sell open. */
  lemma MarkOrdersLocallyOverSettles()
    ensures var book := NewBook()[BtcUsd := [SellA, SellB]];
      var m := SearchLocally(book, BuyFour, "n1");
      && m.Ok?
      && m.value.quantityMatched == 4
      && MarkOrdersLocally(book, Close, BtcUsd, m.value, "f1").Ok?
      && QtyWithStatus(Close, MarkOrdersLocally(book, Close, BtcUsd, m.value, "f1").value[BtcUsd]) == 5
      && MarkOrdersRunning(book, Close, BtcUsd, m.value, "f1").Ok?
      && QtyWithStatus(Close, MarkOrdersRunning(book, Close, BtcUsd, m.value, "f1").value[BtcUsd]) == 4
  {
    var book := NewBook()[BtcUsd := [SellA, SellB]];
    OverSettleSearch();
    var m := MatchResult(true, ["s1", "s2"], 4, "n1");
    OverSettleApplied(book, m);
    ClosedWholeQuantity();
    RunningApplied(book, m);
    RunningClosedQuantity();
  }

  /** Both sells closed whole hold 5 closed units. */
  lemma ClosedWholeQuantity()
    ensures QtyWithStatus(Close, [SellA.(status := Close), SellB.(status := Close)]) == 5
  {
    var closed := [SellA.(status := Close), SellB.(status := Close)];
    assert closed[1..] == [closed[1]] && closed[1..][1..] == [];
    assert QtyWithStatus(Close, closed[1..]) == 3;
  }

  /** The running applier on the example book. */
  lemma RunningApplied(book: Book, m: MatchResult)
    requires book == NewBook()[BtcUsd := [SellA, SellB]]
    requires m == MatchResult(true, ["s1", "s2"], 4, "n1")
    ensures MarkOrdersRunning(book, Close, BtcUsd, m, "f1")
         == Ok(book[BtcUsd := SettleRunning([SellA, SellB], Close, ["s1", "s2"], 4, "f1")])
  {
    assert book[BtcUsd] == [SellA, SellB];
  }

  /** The running applier's result holds 4 closed units. */
  lemma RunningClosedQuantity()
    ensures QtyWithStatus(Close, SettleRunning([SellA, SellB], Close, ["s1", "s2"], 4, "f1")) == 4
  {
    OverSettleRunning();
    var w := [SellA.(status := Close), SellB.(status := Close, quantity := 2)];
    InsertQtyWithStatus(Close, w, Remainder(SellB, 2, "f1"));
    assert w[1..] == [w[1]] && w[1..][1..] == [];
    assert QtyWithStatus(Close, w[1..]) == 2;
  }

  lemma OverSettleApplied(book: Book, m: MatchResult)
    requires book == NewBook()[BtcUsd := [SellA, SellB]]
    requires m == MatchResult(true, ["s1", "s2"], 4, "n1")
    ensures MarkOrdersLocally(book, Close, BtcUsd, m, "f1")
         == Ok(book[BtcUsd := [SellA.(status := Close), SellB.(status := Close)]])
  {
    assert TickerConsistent(book, BtcUsd);
    MarkOrdersLocallyMeetsSpec(book, Close, BtcUsd, m, "f1");
    OverSettleAsWritten();
  }
}

=== FILE: store.dfy ===
/** The order store: one price-ordered list per ticker, with sorted
    insertion, partial update and the periodic sweep of closed orders. */
module OrderStore {
  import opened Wrappers
  import opened Orders

  /** Ticker to that ticker's orders, lowest price first. */
  type Book = map<string, seq<Order>>

  /** Every order sits in the list of its own ticker. */
  predicate TickerConsistent(book: Book, t: string)
    requires t in book
  {
    forall i :: 0 <= i < |book[t]| ==> book[t][i].ticker == t
  }

  /** The shape the book keeps for the lifetime of a peer: exactly the
      valid tickers, each list sorted and holding only its own ticker. */
  predicate Valid(book: Book)
  {
    && book.Keys == ValidTickers
    && forall t :: t in book ==> Sorted(book[t]) && TickerConsistent(book, t)
  }

  /** No id appears twice in any ticker's list. */
  predicate UniqueBook(book: Book)
  {
    forall t :: t in book ==> UniqueIds(book[t])
  }

  /** No list holds an order of negative quantity. */
  predicate NonNegativeBook(book: Book)
  {
    forall t :: t in book ==> NonNegative(book[t])
  }

  /** `id` names no order of any list, as `getRandomID` is relied on to make it. */
  predicate FreshIn(book: Book, id: string)
  {
    forall t :: t in book ==> !HasId(book[t], id)
  }

  /** The constructor: an empty list for every valid ticker. */
  function NewBook(): (b: Book)
    ensures Valid(b)
    ensures forall t :: t in b ==> |b[t]| == 0
    ensures UniqueBook(b)
    ensures NonNegativeBook(b)
  {
    map t | t in ValidTickers :: []
  }

  /** Where `store` inserts an order of price `v`: before the first
      strictly greater price, so after every equal one. */
  function InsertPos(s: seq<Order>, v: int): (k: nat)
    ensures k <= |s|
    ensures forall j :: 0 <= j < k ==> s[j].value <= v
    ensures k < |s| ==> v < s[k].value
  {
    if |s| == 0 || v < s[0].value then 0 else 1 + InsertPos(s[1..], v)
  }

  /** `splice(i, 0, order)` at the position the scan stops at, which is
      the final `push` when it runs off the end. */
  function Insert(s: seq<Order>, o: Order): (r: seq<Order>)
  {
    var k := InsertPos(s, o.value);
    s[..k] + [o] + s[k..]
  }

  /** Position by position: old orders before the insertion point, the
      new order at it, the remaining old orders shifted by one after it. */
  lemma InsertIndex(s: seq<Order>, o: Order, i: nat)
    requires i < |Insert(s, o)|
    ensures |Insert(s, o)| == |s| + 1
    ensures i < InsertPos(s, o.value) ==> Insert(s, o)[i] == s[i]
    ensures i == InsertPos(s, o.value) ==> Insert(s, o)[i] == o
    ensures i > InsertPos(s, o.value) ==> Insert(s, o)[i] == s[i - 1]
  {
  }

  lemma InsertSorted(s: seq<Order>, o: Order)
    requires Sorted(s)
    ensures Sorted(Insert(s, o))
  {
    var k := InsertPos(s, o.value);
    var r := Insert(s, o);
    forall i, j | 0 <= i < j < |r|
      ensures r[i].value <= r[j].value
    {
      InsertIndex(s, o, i);
      InsertIndex(s, o, j);
    }
  }

  lemma InsertQuantity(s: seq<Order>, o: Order)
    ensures SumQty(Insert(s, o)) == SumQty(s) + o.quantity
  {
    var k := InsertPos(s, o.value);
    assert s == s[..k] + s[k..];
    SumQtyConcat(s[..k] + [o], s[k..]);
    SumQtyConcat(s[..k], [o]);
    SumQtyConcat(s[..k], s[k..]);
  }

  lemma InsertQtyWithStatus(st: Status, s: seq<Order>, o: Order)
    ensures QtyWithStatus(st, Insert(s, o))
         == QtyWithStatus(st, s) + (if o.status == st then o.quantity else 0)
  {
    var k := InsertPos(s, o.value);
    assert s == s[..k] + s[k..];
    QtyWithStatusConcat(st, s[..k] + [o], s[k..]);
    QtyWithStatusConcat(st, s[..k], [o]);
    QtyWithStatusConcat(st, s[..k], s[k..]);
  }

  /** Every element of an insertion result is the new order or an old one. */
  lemma InsertMembers(s: seq<Order>, o: Order, i: nat)
    requires i < |Insert(s, o)|
    ensures Insert(s, o)[i] == o || Insert(s, o)[i] in s
  {
    var k := InsertPos(s, o.value);
    if i < k {
      assert Insert(s, o)[i] == s[i];
    } else if i > k {
      assert Insert(s, o)[i] == s[i - 1];
    }
  }

  lemma InsertTickers(s: seq<Order>, o: Order, t: string)
    requires forall i :: 0 <= i < |s| ==> s[i].ticker == t
    requires o.ticker == t
    ensures forall i :: 0 <= i < |Insert(s, o)| ==> Insert(s, o)[i].ticker == t
  {
    forall i | 0 <= i < |Insert(s, o)|
      ensures Insert(s, o)[i].ticker == t
    {
      InsertIndex(s, o, i);
    }
  }

  /** `store`: insert into the order's own ticker list; a ticker with no
      list makes the access throw. */
  function Store(book: Book, o: Order): (r: Result<Book, BookError>)
    ensures r.Ok? <==> o.ticker in book
    ensures r.Ok? ==> r.value.Keys == book.Keys
    ensures r.Ok? ==> forall t :: t in book && t != o.ticker ==> r.value[t] == book[t]
    ensures r.Ok? ==> |r.value[o.ticker]| == |book[o.ticker]| + 1
    ensures r.Ok? && Sorted(book[o.ticker]) ==> Sorted(r.value[o.ticker])
    ensures r.Ok? ==> SumQty(r.value[o.ticker]) == SumQty(book[o.ticker]) + o.quantity
  {
    if o.ticker !in book then Err(TickerNotFound(o.ticker))
    else
      var s := book[o.ticker];
      var k := InsertPos(s, o.value);
      assert s == s[..k] + s[k..];
      InsertQuantity(s, o);
      if Sorted(s) then
        InsertSorted(s, o);
        Ok(book[o.ticker := Insert(s, o)])
      else
        Ok(book[o.ticker := Insert(s, o)])
  }

  /** Storing only adds: the ticker's list gains exactly the new order. */
  lemma StoreAddsOrder(book: Book, o: Order)
    requires o.ticker in book
    ensures multiset(Store(book, o).value[o.ticker]) == multiset(book[o.ticker]) + multiset{o}
  {
    var s := book[o.ticker];
    var k := InsertPos(s, o.value);
    assert s == s[..k] + s[k..];
  }

  /** Storing keeps the book valid when the order's ticker is a valid one. */
  lemma StoreValid(book: Book, o: Order)
    requires Valid(book)
    requires o.ticker in ValidTickers
    ensures Store(book, o).Ok?
    ensures Valid(Store(book, o).value)
  {
    var s := book[o.ticker];
    var b: Book := Store(book, o).value;
    forall i | 0 <= i < |b[o.ticker]|
      ensures b[o.ticker][i].ticker == o.ticker
    {
      InsertMembers(s, o, i);
    }
  }

  /** The ids of an insertion result are the old ids and the new order's. */
  lemma InsertIds(s: seq<Order>, o: Order, x: string)
    ensures HasId(Insert(s, o), x) <==> HasId(s, x) || x == o.id
  {
    var r := Insert(s, o);
    var k := InsertPos(s, o.value);
    if HasId(r, x) {
      var i :| 0 <= i < |r| && r[i].id == x;
      InsertIndex(s, o, i);
      if i < k {
        assert s[i].id == x;
      } else if i > k {
        assert s[i - 1].id == x;
      }
    }
    if HasId(s, x) {
      var i :| 0 <= i < |s| && s[i].id == x;
      if i < k {
        InsertIndex(s, o, i);
      } else {
        InsertIndex(s, o, i + 1);
      }
    }
    if x == o.id {
      InsertIndex(s, o, k);
    }
  }

  /** Inserting an order whose id is new to the list keeps its ids unique. */
  lemma InsertKeepsUnique(s: seq<Order>, o: Order)
    requires UniqueIds(s) && !HasId(s, o.id)
    ensures UniqueIds(Insert(s, o))
  {
    var r := Insert(s, o);
    forall i, j | 0 <= i < j < |r|
      ensures r[i].id != r[j].id
    {
      InsertIndex(s, o, i);
      InsertIndex(s, o, j);
    }
  }

  /** Storing an order whose id is new to its list keeps every list's ids
      unique, and the list gains exactly the order's id. */
  lemma StoreKeepsUnique(book: Book, o: Order)
    requires o.ticker in book
    requires UniqueBook(book) && !HasId(book[o.ticker], o.id)
    ensures Store(book, o).Ok?
    ensures UniqueBook(Store(book, o).value)
    ensures forall x :: HasId(Store(book, o).value[o.ticker], x) <==> HasId(book[o.ticker], x) || x == o.id
  {
    StoreFound(book, o);
    InsertKeepsUnique(book[o.ticker], o);
    forall x
      ensures HasId(Store(book, o).value[o.ticker], x) <==> HasId(book[o.ticker], x) || x == o.id
    {
      InsertIds(book[o.ticker], o, x);
    }
  }

  lemma InsertNonNegative(s: seq<Order>, o: Order)
    requires NonNegative(s) && o.quantity >= 0
    ensures NonNegative(Insert(s, o))
  {
    forall i | 0 <= i < |Insert(s, o)|
      ensures Insert(s, o)[i].quantity >= 0
    {
      InsertIndex(s, o, i);
    }
  }

  /** Storing an order of non-negative quantity keeps every quantity
      non-negative. */
  lemma StoreKeepsNonNegative(book: Book, o: Order)
    requires o.ticker in book
    requires NonNegativeBook(book) && o.quantity >= 0
    ensures Store(book, o).Ok?
    ensures NonNegativeBook(Store(book, o).value)
  {
    StoreFound(book, o);
    InsertNonNegative(book[o.ticker], o);
  }

  /** `update`: replace the first entry carrying the id of `current` by
      `{...current, ...patch}` in the list of `current`'s ticker. */
  function Update(book: Book, current: Order, patch: Patch): (r: Result<Book, BookError>)
    ensures r.Ok? <==> current.ticker in book && HasId(book[current.ticker], current.id)
    ensures current.ticker in book && !HasId(book[current.ticker], current.id)
            ==> r == Err(OrderNotFound(current.ticker, current.id))
    ensures r.Ok? ==> r.value.Keys == book.Keys
    ensures r.Ok? ==> forall t :: t in book && t != current.ticker ==> r.value[t] == book[t]
    ensures r.Ok? ==> |r.value[current.ticker]| == |book[current.ticker]|
    ensures r.Ok? ==>
      var s, s' := book[current.ticker], r.value[current.ticker];
      exists p :: 0 <= p < |s|
        && s[p].id == current.id
        && (forall j :: 0 <= j < p ==> s[j].id != current.id)
        && s'[p] == Merge(current, patch)
        && forall j :: 0 <= j < |s| && j != p ==> s'[j] == s[j]
  {
    if current.ticker !in book then Err(TickerNotFound(current.ticker))
    else
      var s := book[current.ticker];
      match FindIndex(s, current.id)
      case None => Err(OrderNotFound(current.ticker, current.id))
      case Some(p) => Ok(book[current.ticker := s[p := Merge(current, patch)]])
  }

  /** The update a caller makes right after finding the order. */
  lemma UpdateFound(book: Book, current: Order, patch: Patch, p: nat)
    requires current.ticker in book
    requires FindIndex(book[current.ticker], current.id) == Some(p)
    ensures Update(book, current, patch)
         == Ok(book[current.ticker := book[current.ticker][p := Merge(current, patch)]])
  {
  }

  /** Replacing a ticker's list twice keeps only the second list. */
  lemma ReplaceTwice(b: Book, t: string, first: seq<Order>, second: seq<Order>)
    ensures b[t := first][t := second] == b[t := second]
  {
  }

  lemma StoreFound(book: Book, o: Order)
    requires o.ticker in book
    ensures Store(book, o) == Ok(book[o.ticker := Insert(book[o.ticker], o)])
  {
  }

  /** The fields of an update result are the supplied ones where given
      and the current order's everywhere else. */
  lemma MergeSpread(current: Order, patch: Patch)
    ensures Merge(current, NoChange) == current
    ensures Merge(current, patch).id == (if patch.id.Some? then patch.id.value else current.id)
    ensures Merge(current, patch).ticker == (if patch.ticker.Some? then patch.ticker.value else current.ticker)
    ensures Merge(current, patch).orderType
         == (if patch.orderType.Some? then patch.orderType.value else current.orderType)
    ensures Merge(current, patch).value == (if patch.value.Some? then patch.value.value else current.value)
    ensures Merge(current, patch).quantity == (if patch.quantity.Some? then patch.quantity.value else current.quantity)
    ensures Merge(current, patch).ownerId == (if patch.ownerId.Some? then patch.ownerId.value else current.ownerId)
    ensures Merge(current, patch).status == (if patch.status.Some? then patch.status.value else current.status)
    ensures Merge(current, patch).lockExpiresAt
         == (if patch.lockExpiresAt.Some? then patch.lockExpiresAt.value else current.lockExpiresAt)
  {
  }

  /** `orders` with the closed orders spliced out, as the source's loop
      does it: after a removal the index still advances, so the element
      that slid into the removed slot is not examined. */
  function SweepList(s: seq<Order>): (r: seq<Order>)
    ensures |r| <= |s|
  {
    if |s| == 0 then []
    else if s[0].status == Close then
      if |s| == 1 then [] else [s[1]] + SweepList(s[2..])
    else [s[0]] + SweepList(s[1..])
  }

  /** A list without closed orders comes out of the sweep unchanged. */
  lemma {:induction false} SweepListNoClosed(s: seq<Order>)
    requires forall i :: 0 <= i < |s| ==> s[i].status != Close
    ensures SweepList(s) == s
  {
    if |s| > 0 {
      assert s[0].status != Close;
      SweepListNoClosed(s[1..]);
      assert s == [s[0]] + s[1..];
    }
  }

  /** The sweep only deletes: survivors keep their relative order. */
  lemma {:induction false} SweepListSubsequence(s: seq<Order>)
    ensures IsSubsequence(SweepList(s), s)
  {
    if |s| == 0 {
    } else if s[0].status == Close {
      if |s| > 1 {
        var rest := SweepList(s[2..]);
        SweepListSubsequence(s[2..]);
        assert s[1..][1..] == s[2..];
        assert ([s[1]] + rest)[1..] == rest;
        assert IsSubsequence([s[1]] + rest, s[1..]);
      }
    } else {
      var rest := SweepList(s[1..]);
      SweepListSubsequence(s[1..]);
      assert ([s[0]] + rest)[1..] == rest;
    }
  }

  /** The sweep deletes only closed orders: the orders that are not
      closed are the same, in the same order, before and after. */
  lemma {:induction false} SweepListNotClosed(s: seq<Order>)
    ensures NotClosed(SweepList(s)) == NotClosed(s)
  {
    if |s| == 0 {
    } else if s[0].status == Close {
      if |s| > 1 {
        var rest := SweepList(s[2..]);
        SweepListNotClosed(s[2..]);
        assert ([s[1]] + rest)[1..] == rest;
        assert s[1..][1..] == s[2..];
      }
    } else {
      var rest := SweepList(s[1..]);
      SweepListNotClosed(s[1..]);
      assert ([s[0]] + rest)[1..] == rest;
    }
  }

  /** The orders of a list whose status is not `close`, in list order. */
  function NotClosed(s: seq<Order>): (r: seq<Order>)
  {
    if |s| == 0 then []
    else if s[0].status == Close then NotClosed(s[1..])
    else [s[0]] + NotClosed(s[1..])
  }

  /** One examined closed order with a successor: it goes, and the
      successor slides into its slot and is skipped. */
  lemma SweepStepRemoved(r: seq<Order>, i: nat)
    requires i + 1 < |r| && r[i].status == Close
    ensures (r[..i] + r[i + 1..])[..i + 1] + SweepList((r[..i] + r[i + 1..])[i + 1..])
         == r[..i] + SweepList(r[i..])
  {
    var tail := r[i..];
    assert tail[0] == r[i] && tail[1] == r[i + 1];
    assert tail[2..] == r[i + 2..];
    assert SweepList(tail) == [r[i + 1]] + SweepList(r[i + 2..]);
    var r' := r[..i] + r[i + 1..];
    assert r'[..i + 1] == r[..i] + [r[i + 1]];
    assert r'[i + 1..] == r[i + 2..];
  }

  /** The last order, closed: it goes and the loop ends. */
  lemma SweepStepRemovedLast(r: seq<Order>, i: nat)
    requires i + 1 == |r| && r[i].status == Close
    ensures r[..i] + r[i + 1..] == r[..i] + SweepList(r[i..])
  {
    assert r[i..] == [r[i]];
    assert r[i + 1..] == [];
  }

  /** One examined order that stays. */
  lemma SweepStepKept(r: seq<Order>, i: nat)
    requires i < |r| && r[i].status != Close
    ensures r[..i + 1] + SweepList(r[i + 1..]) == r[..i] + SweepList(r[i..])
  {
    assert r[i..][1..] == r[i + 1..];
    assert SweepList(r[i..]) == [r[i]] + SweepList(r[i + 1..]);
    assert r[..i + 1] == r[..i] + [r[i]];
  }

  /** The sweep loop of one ticker, index for index as written. */
  method SweepTicker(orders: seq<Order>) returns (r: seq<Order>)
    ensures r == SweepList(orders)
  {
    r := orders;
    var i := 0;
    assert r[..0] + SweepList(r[0..]) == SweepList(orders) by {
      assert r[..0] == [] && r[0..] == r;
    }
    while i < |r|
      invariant 0 <= i <= |r| + 1
      invariant i <= |r| ==> r[..i] + SweepList(r[i..]) == SweepList(orders)
      invariant i == |r| + 1 ==> r == SweepList(orders)
      decreases |r| + 1 - i
    {
      if r[i].status == Close {
        if i + 1 < |r| {
          SweepStepRemoved(r, i);
        } else {
          SweepStepRemovedLast(r, i);
        }
        r := r[..i] + r[i + 1..];
      } else {
        SweepStepKept(r, i);
      }
      i := i + 1;
    }
    if i == |r| {
      assert r[..i] == r;
      assert r[i..] == [];
    }
  }

  /** `sweepAndRelease`: sweep every valid ticker's list; other keys are
      never visited. */
  function SweepAndRelease(book: Book): (r: Book)
    requires ValidTickers <= book.Keys
    ensures r.Keys == book.Keys
    ensures forall t :: t in book && t !in ValidTickers ==> r[t] == book[t]
    ensures forall t :: t in ValidTickers ==> IsSubsequence(r[t], book[t])
    ensures forall t :: t in ValidTickers ==> NotClosed(r[t]) == NotClosed(book[t])
  {
    var r := map t | t in book :: if t in ValidTickers then SweepList(book[t]) else book[t];
    assert forall t :: t in ValidTickers ==> IsSubsequence(r[t], book[t]) && NotClosed(r[t]) == NotClosed(book[t]) by {
      forall t | t in ValidTickers
        ensures IsSubsequence(r[t], book[t]) && NotClosed(r[t]) == NotClosed(book[t])
      {
        SweepListSubsequence(book[t]);
        SweepListNotClosed(book[t]);
      }
    }
    r
  }

  /** Survivors keep their order, so the sweep keeps every list sorted
      and every order in its own ticker's list. */
  lemma SweepValid(book: Book)
    requires Valid(book)
    ensures Valid(SweepAndRelease(book))
  {
    var r := SweepAndRelease(book);
    forall t | t in r
      ensures Sorted(r[t]) && TickerConsistent(r, t)
    {
      SubsequenceSorted(r[t], book[t]);
      SubsequenceMembers(r[t], book[t]);
      forall i | 0 <= i < |r[t]|
        ensures r[t][i].ticker == t
      {
        assert r[t][i] in book[t];
      }
    }
  }

  /** The sweep removes nothing but closed orders: every order whose
      status is not `close` is still in the list afterwards. */
  lemma {:induction false} NotClosedMembers(s: seq<Order>, x: Order)
    ensures x in NotClosed(s) <==> x in s && x.status != Close
  {
    if |s| > 0 {
      NotClosedMembers(s[1..], x);
      assert s == [s[0]] + s[1..];
    }
  }

  lemma SweepKeepsOpenAndLocked(book: Book, t: string, x: Order)
    requires ValidTickers <= book.Keys
    requires t in book
    requires x in book[t] && x.status != Close
    ensures x in SweepAndRelease(book)[t]
  {
    var r := SweepAndRelease(book);
    NotClosedMembers(book[t], x);
    NotClosedMembers(r[t], x);
  }

  /** A subsequence names no id the original list does not. */
  lemma SubsequenceIds(a: seq<Order>, b: seq<Order>, x: string)
    requires IsSubsequence(a, b)
    ensures HasId(a, x) ==> HasId(b, x)
  {
    SubsequenceMembers(a, b);
    if HasId(a, x) {
      var i :| 0 <= i < |a| && a[i].id == x;
      assert a[i] in b;
    }
  }

  /** The sweep only deletes, so ids stay unique and no id appears that
      was not there before. */
  lemma SweepKeepsUnique(book: Book, x: string)
    requires ValidTickers <= book.Keys
    requires UniqueBook(book)
    ensures UniqueBook(SweepAndRelease(book))
    ensures FreshIn(book, x) ==> FreshIn(SweepAndRelease(book), x)
  {
    var r := SweepAndRelease(book);
    forall t | t in r
      ensures UniqueIds(r[t]) && (!HasId(book[t], x) ==> !HasId(r[t], x))
    {
      if t in ValidTickers {
        SubsequenceUniqueIds(r[t], book[t]);
        SubsequenceIds(r[t], book[t], x);
      }
    }
  }

  /** The sweep only deletes, so no negative quantity appears. */
  lemma SweepKeepsNonNegative(book: Book)
    requires ValidTickers <= book.Keys
    requires NonNegativeBook(book)
    ensures NonNegativeBook(SweepAndRelease(book))
  {
    var r := SweepAndRelease(book);
    forall t | t in r
      ensures NonNegative(r[t])
    {
      if t in ValidTickers {
        SubsequenceNonNegative(r[t], book[t]);
      }
    }
  }

  /** A list of exactly two closed orders: the second slides into the
      slot of the first, is skipped, and survives; a second sweep then
      removes it. */
  lemma SweepSkipsAdjacentClosed(a: Order, b: Order)
    requires a.status == Close && b.status == Close
    ensures SweepList([a, b]) == [b]
    ensures SweepList(SweepList([a, b])) == []
  {
    assert [a, b][2..] == [];
  }

  /** Whatever the rest of the list holds, two adjacent closed orders are
      never both evicted by one sweep: either the first is removed and the
      second skipped, or the first was itself skipped. */
  lemma {:induction false} SweepLeavesAdjacentClosed(s: seq<Order>, k: nat)
    requires k + 1 < |s|
    requires s[k].status == Close && s[k + 1].status == Close
    ensures exists i :: 0 <= i < |SweepList(s)| && SweepList(s)[i].status == Close
  {
    if s[0].status == Close {
      if k <= 1 {
        assert SweepList(s)[0] == s[1];
      } else {
        SweepLeavesAdjacentClosed(s[2..], k - 2);
        var i :| 0 <= i < |SweepList(s[2..])| && SweepList(s[2..])[i].status == Close;
        assert SweepList(s)[i + 1] == SweepList(s[2..])[i];
      }
    } else {
      SweepLeavesAdjacentClosed(s[1..], k - 1);
      var i :| 0 <= i < |SweepList(s[1..])| && SweepList(s[1..])[i].status == Close;
      assert SweepList(s)[i + 1] == SweepList(s[1..])[i];
    }
  }

  /** When no two closed orders are adjacent, every closed order is
      examined and the as-written sweep removes all of them. */
  lemma {:induction false} SweepListSpacedRemovesAll(s: seq<Order>)
    requires forall i, j :: 0 <= i && j == i + 1 && j < |s| ==> !(s[i].status == Close && s[j].status == Close)
    ensures SweepList(s) == NotClosed(s)
  {
    if |s| == 0 {
    } else if s[0].status == Close {
      if |s| > 1 {
        assert s[1].status != Close;
        assert s[1..][1..] == s[2..];
        assert forall i, j :: 0 <= i && j == i + 1 && j < |s[2..]| ==> s[2..][i] == s[i + 2] && s[2..][j] == s[j + 2];
        SweepListSpacedRemovesAll(s[2..]);
      }
    } else {
      assert forall i, j :: 0 <= i && j == i + 1 && j < |s[1..]| ==> s[1..][i] == s[i + 1] && s[1..][j] == s[j + 1];
      SweepListSpacedRemovesAll(s[1..]);
    }
  }

  lemma {:induction false} NotClosedHasNoClosed(s: seq<Order>)
    ensures forall i :: 0 <= i < |NotClosed(s)| ==> NotClosed(s)[i].status != Close
  {
    if |s| > 0 {
      NotClosedHasNoClosed(s[1..]);
    }
  }

  lemma {:induction false} NotClosedIdempotent(s: seq<Order>)
    ensures NotClosed(NotClosed(s)) == NotClosed(s)
  {
    if |s| > 0 {
      NotClosedIdempotent(s[1..]);
      if s[0].status != Close {
        assert ([s[0]] + NotClosed(s[1..]))[1..] == NotClosed(s[1..]);
      }
    }
  }

  /** The sweep as evidently intended: every closed order of every valid
      ticker is evicted, in one pass. */
  function SweepAllAndRelease(book: Book): (r: Book)
    requires ValidTickers <= book.Keys
    ensures r.Keys == book.Keys
    ensures forall t :: t in book && t !in ValidTickers ==> r[t] == book[t]
    ensures forall t, i :: t in ValidTickers && 0 <= i < |r[t]| ==> r[t][i].status != Close
    ensures forall t :: t in ValidTickers ==> NotClosed(r[t]) == NotClosed(book[t])
  {
    var r := map t | t in book :: if t in ValidTickers then NotClosed(book[t]) else book[t];
    assert forall t :: t in ValidTickers ==> NotClosed(r[t]) == NotClosed(book[t]) by {
      forall t | t in ValidTickers
        ensures NotClosed(r[t]) == NotClosed(book[t])
      {
        NotClosedIdempotent(book[t]);
      }
    }
    assert forall t, i :: t in ValidTickers && 0 <= i < |r[t]| ==> r[t][i].status != Close by {
      forall t | t in ValidTickers
        ensures forall i :: 0 <= i < |r[t]| ==> r[t][i].status != Close
      {
        NotClosedHasNoClosed(book[t]);
      }
    }
    r
  }

  /** Sweeping twice in a row removes nothing the first sweep left. */
  lemma SweepAllIdempotent(book: Book)
    requires ValidTickers <= book.Keys
    ensures SweepAllAndRelease(SweepAllAndRelease(book)) == SweepAllAndRelease(book)
  {
    var r := SweepAllAndRelease(book);
    var r2 := SweepAllAndRelease(r);
    forall t | t in book
      ensures r2[t] == r[t]
    {
      if t in ValidTickers {
        NotClosedIdempotent(book[t]);
      }
    }
  }
}

=== FILE: wrappers.dfy ===
/** The optional value, the success-or-error result and the small helpers
    used throughout the order-book model. */
module Wrappers {

  /** An optional value: the source's `undefined` where a value may be absent. */
  datatype Option<+T> = None | Some(value: T)

  /** Either a value or the error that aborted the operation. */
  datatype Result<+T, +E> = Ok(value: T) | Err(error: E)

  function Min(a: int, b: int): (m: int)
  {
    if a <= b then a else b
  }
}
